=== FILE: README.md ===
# elastic-rails core, modelled in Dafny

This project models two pieces of the `elastic-rails` schema and query layer.
The behaviour is taken from the RSpec suites of those two components.

- `Elastic::Core::Definition` (module `Definitions`, file `definition.dfy`) is the schema registry. It holds:
  - the backing target types, which must all be indexable and share one `elastic_mode`;
  - an insertion-ordered collection of uniquely named fields, where a field may own a nested definition;
  - `custom_options`, a hash with indifferent access (`:foo` and `'foo'` are the same key);
  - a frozen flag.

  The operations are `targets=`/`targets`, `main_target`, `register_field`, `has_field?`, `get_field` (dotted paths delegate to the head field), `fields`, `expanded_field_names`, `freeze` (deep) and `as_es_mapping` (with type inference from the main target).
- `Elastic::Nodes::Agg::DateHistogram` (module `DateHistograms`, file `date_histogram.dfy`) is an aggregation node. It has:
  - a validated `interval`;
  - a validated `time_zone`;
  - named child aggregations.

  `render` builds the request fragment and omits unset keys. `handle_result` decodes `{"buckets" => [...]}` into buckets, one per raw entry. Each bucket keeps the raw `key` and each child's decoding of its own value.

Supporting modules:
- `Wrappers`: `Option` stands for `nil`-or-value and `Result` for value-or-raised-error.
- `Json`: the JSON-like documents. Objects are maps, so key order does not matter, as with Ruby's `Hash#==`.
- `TimeZones`: a time zone as a name plus a UTC offset. It includes the `"+HH:MM"` formatted offset.

The lemma modules `DefinitionProperties` (`definition_lemmas.dfy`) and `DateHistogramProperties` (`date_histogram_lemmas.dfy`) hold two kinds of lemma. Some are general properties. Others are the specs' own scenarios stated as instances.

Every mutating Ruby call becomes a pure function that returns the new value. A call that can raise returns `Result`, and the error constructors name the `RuntimeError` or `ArgumentError` cases. Three collaborators become plain data or parameters:
- the target's indexable capability and `elastic_mode` are fields of `Target`;
- the inference command (`elastic_field_options_for`) is an `Inferrer` function parameter that may fail;
- the stub child aggregation of the specs is the `Stub` node variant. It renders to a fixed value and decodes a value to itself.

Design decisions where the tests are silent:
- Targets are validated when `targets` is read, not when it is assigned. This follows definition_spec.rb:17-30, where the assignment succeeds and the read raises. An empty target list is refused on read.
- Re-registering a field name replaces the field in place. This is Ruby `Hash` semantics. No property is claimed about it.
- `get_field('a.b')` where `a` has no nested definition answers `None`. No property is claimed about it.
- Inference runs inside `as_es_mapping` against `main_target`. The spec stubs `simple_target.elastic_field_options_for` and checks `mapping_inference_enabled?`. The inferred options are used as given.
- An object field's mapping adds the nested definition's `properties` to the field's own options.
- A histogram response that is not an object holding a `buckets` array, or a bucket entry that is not an object, is refused with `MalformedResult`. A missing `key` or child value reads as `Null`, as `hash['missing']` gives `nil`.
- The interval grammar is one or more digits followed by one unit letter from `IntervalUnits`. That set contains `d` and not `j`.

## Model

| member | source | states |
|---|---|---|
| Definitions.Targets | spec/lib/core/definition_spec.rb:14-31 | reading `targets` succeeds exactly when the list is non-empty, every target is indexable and all share one mode; it then yields the assigned list; a non-indexable member is reported as such |
| Definitions.MainTarget | spec/lib/core/definition_spec.rb:37-39 | `main_target` is available exactly when the targets are valid, and is the first target |
| Definitions.SetOption | spec/lib/core/definition_spec.rb:41-45 | a write to `custom_options` is refused exactly when the hash is frozen; otherwise the value reads back under the key, and keys with a different canonical string are untouched |
| Definitions.SetCustomOption | spec/lib/core/definition_spec.rb:84-89 | writing a custom option through the definition fails exactly when its options are frozen; otherwise the value reads back, every option under a different canonical key is unchanged, the hash stays writable, and fields, targets and frozen flag are untouched |
| Definitions.Lookup | spec/lib/core/definition_spec.rb:105-106 | the lookup answers nothing exactly when no field has the name, and otherwise a registered field of that name |
| Definitions.Upsert | spec/lib/core/definition_spec.rb:96-99 | after registering `f`, looking up its name gives `f`; every other name looks up as before; a new name is appended at the end |
| Definitions.RegisterField | spec/lib/core/definition_spec.rb:65-78 | `register_field` fails exactly when the definition is frozen; otherwise the field is registered and found by name, other lookups are unchanged, a new name goes last, and targets, options and frozen flag are untouched, so registrations can follow one another |
| Definitions.DotIndex | spec/lib/core/definition_spec.rb:108-111 | finds the first `.` of a path: none exactly when the path has no dot, else a dot position with no dot before it |
| Definitions.FieldNames | spec/lib/core/definition_spec.rb:101-102 | lists the fields' names position by position |
| Definitions.NewDefinition | spec/lib/core/definition_spec.rb:6-10 | `Definition.new` has no targets, no fields, an empty writable options hash, and is not frozen |
| Definitions.SetTargets | spec/lib/core/definition_spec.rb:17-30 | `targets=` stores the list as given, with no check, and changes nothing else |
| Definitions.GetOption | spec/lib/core/definition_spec.rb:41-45 | `custom_options[k]` answers exactly when the key's canonical string is stored, and gives the value stored there; `IndifferentAccess` relates the two key spellings |
| Definitions.GetCustomOption | spec/lib/core/definition_spec.rb:41-45 | `definition.custom_options[k]` answers exactly when the key's canonical string is stored in the definition's options, with that value |
| Definitions.Fields | spec/lib/core/definition_spec.rb:101-103 | every listed field answers `has_field?`, and every name that answers it is listed; `RegistrationOrder` and `TwoFieldsInOrder` give the registration order (`[foo_field, bar_field]`) |
| Definitions.HasField | spec/lib/core/definition_spec.rb:53-55 | `has_field?` holds exactly when the field lookup finds the name; `HasFieldIffGetField` ties it to `get_field` |
| Definitions.GetField | spec/lib/core/definition_spec.rb:105-111 | an undotted path answers exactly when `has_field?` holds, with a registered field of that name; a dotted path answers only when its head is registered; `GetFieldDelegates` states the delegation |
| Definitions.FieldGetField | spec/lib/core/definition_spec.rb:108-111 | a field without a nested definition resolves nothing; an undotted path resolves to a field of the nested definition with that name, and resolves to something exactly when the nested definition has that field |
| Definitions.ExpandedNames | spec/lib/core/definition_spec.rb:136-146 | a field's expanded names are its own name followed by each of the nested definition's expanded names prefixed with `name.`, and nothing else |
| Definitions.ExpandedNamesOf | spec/lib/core/definition_spec.rb:136-146 | a field list has at least one expanded name per field, and it begins with the first field's whole `expanded_names`; `ExpandedNamesOfSingleton`, `ExpandedNamesAppend` and `ExpandedNamesOfMembers` give the rest |
| Definitions.ExpandedFieldNames | spec/lib/core/definition_spec.rb:136-146 | `expanded_field_names` has at least one name per field, the first field's first; it is `ExpandedNamesOf` of the fields, so the lemmas on that function give its contents and order |
| Definitions.FreezeDefinition | spec/lib/core/definition_spec.rb:73-90 | `freeze` marks the definition and its options frozen, keeps targets and option entries, and freezes every field in place with its name and options; `FreezeIsDeep` carries the depth and `FreezeKeepsMapping` shows the mapping is unchanged |
| Definitions.FreezeFields | spec/lib/core/definition_spec.rb:148-153 | freezing a field list keeps its length, and each field keeps its name and options and is frozen |
| Definitions.FreezeField | spec/lib/core/definition_spec.rb:148-153 | `Field#freeze` marks the field frozen, keeps its name, options and inference switch, and freezes its nested definition when there is one, keeping that definition's targets, option entries and field names |
| Definitions.BaseOptions | spec/lib/core/definition_spec.rb:157-188 | a typed field's options are used as declared; an untyped field fails when inference is disabled; otherwise they are the main target's inferred options, failing exactly when the targets or the inference fail |
| Definitions.FieldMapping | spec/lib/core/definition_spec.rb:119-133 | a field maps to an object exactly when its options resolve and its nested definition maps; a scalar field maps to its options; an object field maps to its options with `properties` set to the nested definition's properties |
| Definitions.AsEsMapping | spec/lib/core/definition_spec.rb:61-63 | `as_es_mapping` succeeds exactly when the properties do, and is an object whose only key is `properties`; `MappingSpec` gives its contents |
| DefinitionProperties.NewDefinitionIsEmpty | spec/lib/core/definition_spec.rb:48-71 | a new definition has no fields, `has_field?` false, `get_field` nil, mapping `{"properties" => {}}`, and is not frozen |
| DefinitionProperties.TargetsCheckedOnRead | spec/lib/core/definition_spec.rb:17-30 | assigning targets always succeeds and leaves fields and frozen flag alone; reading them back succeeds exactly for a valid list, and then returns it |
| DefinitionProperties.SingleTarget | spec/lib/core/definition_spec.rb:33-39 | after `targets = [t]`, `targets` is `[t]` and `main_target` is `t` |
| DefinitionProperties.BadTargetsFail | spec/lib/core/definition_spec.rb:17-30 | a list with a non-indexable target or two differing modes fails on read of `targets` and of `main_target` |
| DefinitionProperties.IndifferentAccess | spec/lib/core/definition_spec.rb:41-46 | a value written under `:foo` reads back under `'foo'`, and one written under `'foo'` reads back under `:foo` |
| DefinitionProperties.RegisterNewAppends | spec/lib/core/definition_spec.rb:96-99 | registering a new name on an unfrozen definition appends exactly that field |
| DefinitionProperties.RegistrationOrder | spec/lib/core/definition_spec.rb:101-103 | registering fields with fresh distinct names leaves `fields` as the old fields followed by the new ones in registration order |
| DefinitionProperties.RegisterKeepsUnique | spec/lib/core/definition_spec.rb:96-99 | registration keeps field names unique |
| DefinitionProperties.UpsertKeepsUnique | spec/lib/core/definition_spec.rb:96-99 | replacing or appending a field keeps field names unique |
| DefinitionProperties.TwoFieldsInOrder | spec/lib/core/definition_spec.rb:92-117 | registering `foo` then `bar` gives `fields == [foo, bar]`, `has_field?('foo')` true and `has_field?('baz')` false |
| DefinitionProperties.HasFieldIffGetField | spec/lib/core/definition_spec.rb:53-59 | for an undotted name, `has_field?` holds exactly when `get_field` answers, and the answer is a registered field of that name |
| DefinitionProperties.GetRegisteredField | spec/lib/core/definition_spec.rb:105-106 | `get_field` of a registered field's name returns that field |
| DefinitionProperties.GetFieldDelegates | spec/lib/core/definition_spec.rb:108-111 | `get_field('head.rest')` looks up `head` and returns that field's `get_field('rest')`, or nil when `head` is absent |
| DefinitionProperties.NestedLookup | spec/lib/core/definition_spec.rb:108-111 | with `foo` registered, `get_field('foo.qux')` is `foo.get_field('qux')` |
| DefinitionProperties.ExpandedNamesAppend | spec/lib/core/definition_spec.rb:136-141 | the expanded names of two field lists concatenated are the concatenation of their expanded names |
| DefinitionProperties.ScalarExpandedNames | spec/lib/core/definition_spec.rb:143-145 | fields without nested definitions expand to their own names in registration order (`['foo', 'bar']`) |
| DefinitionProperties.ExpandedNamesOfSingleton | spec/lib/core/definition_spec.rb:136-141 | one field contributes exactly its own `expanded_names`; with `ExpandedNamesAppend`, the expanded field names are the fields' `expanded_names` concatenated in registration order |
| DefinitionProperties.ExpandedNamesOfMembers | spec/lib/core/definition_spec.rb:136-141 | a name is an expanded field name exactly when it is among some registered field's `expanded_names` |
| DefinitionProperties.ExpandedNamesOfField | spec/lib/core/definition_spec.rb:136-141 | a field's expanded names begin with its own name and all start with it |
| DefinitionProperties.ExpandedNamesIncludeFields | spec/lib/core/definition_spec.rb:136-141 | every registered name appears among the expanded names |
| DefinitionProperties.ExpandedNamesStartWithFields | spec/lib/core/definition_spec.rb:136-141 | every expanded name starts with some registered field's name |
| DefinitionProperties.FreezeFieldsKeepsShape | spec/lib/core/definition_spec.rb:148-153 | freezing a field list freezes each field where it stands |
| DefinitionProperties.FreezeIsDeep | spec/lib/core/definition_spec.rb:148-153 | after `freeze` the definition, its custom options, every field and every nested definition are frozen |
| DefinitionProperties.FreezeFieldIsDeep | spec/lib/core/definition_spec.rb:148-153 | a frozen field is frozen together with its nested definition |
| DefinitionProperties.FreezeFixesFrozen | spec/lib/core/definition_spec.rb:80-82 | freezing an already deeply frozen definition changes nothing |
| DefinitionProperties.FreezeFieldFixesFrozen | spec/lib/core/definition_spec.rb:80-82 | freezing an already deeply frozen field changes nothing |
| DefinitionProperties.FreezeIdempotent | spec/lib/core/definition_spec.rb:73-82 | `freeze` twice equals `freeze` once |
| DefinitionProperties.FrozenRefusesWrites | spec/lib/core/definition_spec.rb:73-90 | after `freeze`, `frozen?` and `custom_options.frozen?` are true, `register_field` and writes to `custom_options` fail |
| DefinitionProperties.FreezeKeepsFields | spec/lib/core/definition_spec.rb:148-153 | freezing keeps the fields' names in order and each field's options, and marks every field frozen |
| DefinitionProperties.FreezeKeepsExpandedNames | spec/lib/core/definition_spec.rb:136-153 | freezing does not change `expanded_field_names` |
| DefinitionProperties.FreezeKeepsMapping | spec/lib/core/definition_spec.rb:119-153 | freezing does not change `as_es_mapping`, nested definitions included |
| DefinitionProperties.FreezeKeepsFieldMapping | spec/lib/core/definition_spec.rb:119-153 | a frozen field maps exactly as the field did, under any definition with the same targets |
| DefinitionProperties.PropertiesOfSucceeds | spec/lib/core/definition_spec.rb:119-124 | the properties object succeeds exactly when every field maps, and then has exactly the field names as keys |
| DefinitionProperties.PropertiesOfValues | spec/lib/core/definition_spec.rb:119-124 | with unique names, each field's key holds that field's mapping |
| DefinitionProperties.PropertiesOfFirstError | spec/lib/core/definition_spec.rb:119-124 | a failing properties object carries the error of the first field whose mapping fails |
| DefinitionProperties.PropertiesOfSpec | spec/lib/core/definition_spec.rb:119-124 | the properties object succeeds exactly when every field's mapping does, has one key per field holding that field's mapping, and otherwise fails with the first failing field's error |
| DefinitionProperties.MappingSpec | spec/lib/core/definition_spec.rb:126-133 | `as_es_mapping` succeeds exactly when every field maps, and is `{"properties" => {name => mapping}}` with exactly the field names as keys |
| DefinitionProperties.TypedFieldMapping | spec/lib/core/definition_spec.rb:126-133 | a typed scalar field maps to its options unchanged |
| DefinitionProperties.InferredFieldMapping | spec/lib/core/definition_spec.rb:157-178 | an untyped field with inference enabled maps to the main target's inferred options |
| DefinitionProperties.UninferableFieldFails | spec/lib/core/definition_spec.rb:182-187 | one untyped field with inference disabled makes the whole `as_es_mapping` fail |
| DefinitionProperties.TypedPairMapping | spec/lib/core/definition_spec.rb:126-133 | two typed scalar fields map to exactly their two properties |
| DefinitionProperties.TypedFieldsExample | spec/lib/core/definition_spec.rb:126-133 | registering `foo` (`string`) and `bar` (`integer`) gives exactly `{'properties' => {'foo' => {'type' => 'string'}, 'bar' => {'type' => 'integer'}}}` |
| DefinitionProperties.InferenceExample | spec/lib/core/definition_spec.rb:172-178 | with inference answering `{'type' => 'teapot'}`, an untyped `foo` maps to `{'properties' => {'foo' => {'type' => 'teapot'}}}` |
| DateHistograms.ValidInterval | spec/lib/nodes/agg/date_histogram_spec.rb:8-14 | the interval check accepts exactly digits followed by one unit letter |
| DateHistograms.SetInterval | spec/lib/nodes/agg/date_histogram_spec.rb:8-14 | `interval=` succeeds exactly for nil or a grammatical interval, stores it, and otherwise raises naming the value |
| DateHistograms.SetTimeZone | spec/lib/nodes/agg/date_histogram_spec.rb:16-22 | `time_zone=` succeeds exactly for nil or a time-zone object and stores it; any other value is refused |
| DateHistograms.HistogramBody | spec/lib/nodes/agg/date_histogram_spec.rb:24-39 | the body has `field`, and `interval` and `time_zone` exactly when set, holding the interval and the zone's formatted offset |
| DateHistograms.Child | spec/lib/nodes/agg/date_histogram_spec.rb:59-62 | a child lookup answers nothing exactly when no child has the name, else a child of that name |
| DateHistograms.UpsertChild | spec/lib/nodes/agg/date_histogram_spec.rb:59-62 | after registering `c`, its name finds `c`, other names find what they did, and a new name goes last |
| DateHistograms.Aggregate | spec/lib/nodes/agg/date_histogram_spec.rb:59-62 | `aggregate` registers the child under its name, keeps other children, and changes nothing else about the histogram, its own name included |
| DateHistograms.AllDigits | spec/lib/nodes/agg/date_histogram_spec.rb:8-14 | holds exactly when every character is a decimal digit |
| DateHistograms.NewDateHistogram | spec/lib/nodes/agg/date_histogram_spec.rb:4-6 | a new histogram over `field` has no interval, no time zone and no children |
| DateHistograms.Render | spec/lib/nodes/agg/date_histogram_spec.rb:24-69 | a histogram renders to an object with the `date_histogram` body, plus `aggs` exactly when children exist; a stub child renders to its fixed document |
| DateHistograms.HandleResult | spec/lib/nodes/agg/date_histogram_spec.rb:43-80 | a stub child decodes a value to itself; a histogram refuses a response without a `buckets` array, and otherwise yields one bucket per raw entry; `HandleResultSpec` gives the contents |
| DateHistograms.BucketGet | spec/lib/nodes/agg/date_histogram_spec.rb:70-78 | `bucket[name]` answers exactly for a child name the bucket holds, with that child's result; `HandleResultSpec` says each child's result is its own `handle_result` of the bucket's entry |
| DateHistograms.Count | spec/lib/nodes/agg/date_histogram_spec.rb:49-51 | `count` of a decoded collection; `HandleResultSpec` says it equals the number of raw buckets (1 for `[{ 'key' => 100 }]`, as `DecodeExamples` shows) |
| DateHistograms.DecodeBuckets | spec/lib/nodes/agg/date_histogram_spec.rb:43-57 | decoding yields exactly one bucket per raw entry |
| TimeZones.FormattedOffset | spec/lib/nodes/agg/date_histogram_spec.rb:34-38 | the formatted offset starts with the offset's sign; a real zone's has the `+HH:MM` shape |
| TimeZones.FormattedOffsetRoundTrip | spec/lib/nodes/agg/date_histogram_spec.rb:34-38 | parsing the formatted offset gives back the zone's offset (whole minutes) |
| TimeZones.UtcOffsetString | spec/lib/nodes/agg/date_histogram_spec.rb:34-38 | the UTC zone formats as `+00:00` |
| DateHistogramProperties.IntervalExamples | spec/lib/nodes/agg/date_histogram_spec.rb:8-14 | `'1j'` is refused, `'2d'` and nil are accepted |
| DateHistogramProperties.TimeZoneExamples | spec/lib/nodes/agg/date_histogram_spec.rb:16-22 | the string `'+00:00'` is refused, the UTC zone object and nil are accepted |
| DateHistogramProperties.ChildNamesCons | spec/lib/nodes/agg/date_histogram_spec.rb:59-62 | the child names of a list are the first child's name and the rest's names |
| DateHistogramProperties.UniqueTail | spec/lib/nodes/agg/date_histogram_spec.rb:59-62 | with unique child names, the first name does not recur in the rest |
| DateHistogramProperties.RenderChildrenSpec | spec/lib/nodes/agg/date_histogram_spec.rb:64-69 | the `aggs` object has one key per child, holding that child's rendering |
| DateHistogramProperties.RenderShape | spec/lib/nodes/agg/date_histogram_spec.rb:24-69 | `render` has the `date_histogram` body, plus `aggs` exactly when children exist, holding each child's rendering by name |
| DateHistogramProperties.RenderFieldOnly | spec/lib/nodes/agg/date_histogram_spec.rb:25-27 | with only the field set, `render` is exactly `{'date_histogram' => {'field' => f}}` |
| DateHistogramProperties.RenderSetsInterval | spec/lib/nodes/agg/date_histogram_spec.rb:29-32 | setting an interval on any histogram sets exactly `'interval' => i` in the body, adding it or replacing an earlier one, and changes nothing else |
| DateHistogramProperties.RenderSetsTimeZone | spec/lib/nodes/agg/date_histogram_spec.rb:34-38 | setting a zone on any histogram sets exactly `'time_zone' => <formatted offset>` in the body, adding it or replacing an earlier one, and changes nothing else |
| DateHistogramProperties.RenderIntervalExample | spec/lib/nodes/agg/date_histogram_spec.rb:29-32 | `interval = '1d'` renders as `{'date_histogram' => {'field' => 'foo', 'interval' => '1d'}}` |
| DateHistogramProperties.RenderTimeZoneExample | spec/lib/nodes/agg/date_histogram_spec.rb:34-38 | the UTC zone renders as `{'date_histogram' => {'field' => 'foo', 'time_zone' => '+00:00'}}` |
| DateHistogramProperties.RenderChildExample | spec/lib/nodes/agg/date_histogram_spec.rb:64-69 | a child `bar` rendering to `'qux'` gives `{'date_histogram' => {'field' => 'foo'}, 'aggs' => {'bar' => 'qux'}}` |
| DateHistogramProperties.UpsertChildKeepsUnique | spec/lib/nodes/agg/date_histogram_spec.rb:59-62 | `aggregate` keeps child names unique |
| DateHistogramProperties.DecodeChildrenSpec | spec/lib/nodes/agg/date_histogram_spec.rb:71-80 | a bucket's child results succeed exactly when every child decodes its entry, with one result per child name, each that child's decoding |
| DateHistogramProperties.DecodeBucketsSpec | spec/lib/nodes/agg/date_histogram_spec.rb:43-57 | decoding yields one bucket per raw entry, in order, succeeding exactly when every entry decodes |
| DateHistogramProperties.HandleResultSpec | spec/lib/nodes/agg/date_histogram_spec.rb:43-80 | `handle_result` succeeds exactly for a decodable `buckets` array; count equals the raw count, each `key` is the raw `key`, and each `bucket[child]` is the child's decoding of the raw value |
| DateHistogramProperties.MalformedResponseFails | spec/lib/nodes/agg/date_histogram_spec.rb:43-47 | a response without a `buckets` array is refused |
| DateHistogramProperties.DecodeExamples | spec/lib/nodes/agg/date_histogram_spec.rb:43-57 | empty `buckets` decodes to an empty collection; `[{'key' => 100}]` to one bucket with key 100 |
| DateHistogramProperties.DecodeChildExample | spec/lib/nodes/agg/date_histogram_spec.rb:71-80 | with a pass-through child `bar`, the first bucket's `[:bar]` is the raw `:bar` |
| DateHistogramProperties.EncodeChildrenSpec | spec/lib/nodes/agg/date_histogram_spec.rb:71-80 | the engine entry carries each child's raw value under the child's name |
| DateHistogramProperties.EncodedChildDecodes | spec/lib/nodes/agg/date_histogram_spec.rb:71-80 | a leaf child decodes its value in the engine entry back to the bucket's result |
| DateHistogramProperties.EncodedChildrenDecode | spec/lib/nodes/agg/date_histogram_spec.rb:71-80 | all leaf children together decode the engine entry back to the bucket's results |
| DateHistogramProperties.DecodeEncodedBucket | spec/lib/nodes/agg/date_histogram_spec.rb:43-80 | decoding the engine entry for a leaf bucket gives back that bucket |
| DateHistogramProperties.HandleResultRoundTrip | spec/lib/nodes/agg/date_histogram_spec.rb:43-80 | for leaf children, `handle_result` of the engine response for a bucket sequence is exactly that sequence |

## Left out

- Ruby class introspection is not modelled. This covers `include Elastic::Indexable` and the `elastic_mode` class attribute. Both are recorded as fields of `Target`.
- `ActiveSupport::TimeZone`'s zone database is a library outside this model. A zone is a name and an offset in seconds, and `FormattedOffset` follows `formatted_offset`.
- The formatter collaborator passed to `handle_result` is not modelled. The stub child of the specs ignores it, and no terminal-value shaping is modelled.
- `build_agg_node` and `field_double` are replaced. The first is the `Stub` variant and the second is `NewField`.
- RSpec call-tracking assertions (`have_received` at definition_spec.rb:110, 120-124, 137-141, 149-153, 167-170) are not modelled. They are stated instead as value-level properties of the operation that would make those calls. The delegation at line 110 is `GetFieldDelegates` and `NestedLookup`. The `mapping_options` calls are `PropertiesOfSpec`. The `expanded_names` calls are `ExpandedNamesOfSingleton`, `ExpandedNamesAppend` and `ExpandedNamesOfMembers`. The `freeze` calls are `FreezeIsDeep`. The inference check is `InferredFieldMapping` and `UninferableFieldFails`.
- `Enumerator` laziness is not modelled. `fields` and `expanded_field_names` return finite sequences.
- Transport and search-engine I/O are outside the core.
- The `field=` setter is not modelled. Its validation and an unset field are not exercised, so a histogram is built with its field.
- No property is claimed for re-registering a field name, for a dotted `get_field` through a field with no nested definition, or for the full interval unit alphabet. The tests do not exercise them.
- Inferred options are used as returned. The model does not check that they carry a type.

=== FILE: date_histogram.dfy ===
/** `Elastic::Nodes::Agg::DateHistogram` and the bucket results it decodes.

    A node renders itself into a request fragment and decodes the matching
    response fragment. The date histogram carries a field, an optional
    validated interval, an optional time zone and named child aggregations;
    `Stub` stands for any other child node, rendering to a fixed document and
    decoding a value to itself. */
module DateHistograms {
  import opened Wrappers
  import opened Json
  import TimeZones

  /** The `ArgumentError`s of the setters, and a response of the wrong shape. */
  datatype Error =
    | InvalidInterval(interval: string)
    | InvalidTimeZone(given: Value)
    | MalformedResult

  datatype AggNode =
    | DateHistogram(
        name: string,
        field: string,
        interval: Option<string>,
        timeZone: Option<TimeZones.Zone>,
        aggs: seq<AggNode>)
    | Stub(name: string, rendered: Value)

  /** What `time_zone=` may be given: `nil`, a time-zone object, or any other
      Ruby value (such as the string `'+00:00'`). */
  datatype ZoneArg = NilZone | ZoneObject(zone: TimeZones.Zone) | OtherValue(value: Value)

  /** A decoded aggregation: a bucket collection, or a child's decoded value. */
  datatype AggResult = Buckets(buckets: seq<Bucket>) | Decoded(value: Value)

  /** One bucket: the engine's `key` and each child aggregation's result by name. */
  datatype Bucket = Bucket(key: Value, aggs: map<string, AggResult>)

  // ---------------------------------------------------------------------
  // Parameters

  /** The interval unit letters: years, quarters, months, weeks, days, hours,
      minutes, seconds. */
  const IntervalUnits: set<char> := {'y', 'q', 'M', 'w', 'd', 'h', 'm', 's'}

  /** The interval grammar: one or more decimal digits, then one unit letter. */
  ghost predicate IntervalGrammar(s: string)
  {
    && |s| >= 2
    && s[|s| - 1] in IntervalUnits
    && forall i :: 0 <= i < |s| - 1 ==> TimeZones.IsDigit(s[i])
  }

  function AllDigits(s: string): (r: bool)
    ensures r <==> forall i :: 0 <= i < |s| ==> TimeZones.IsDigit(s[i])
  {
    s == [] || (TimeZones.IsDigit(s[0]) && AllDigits(s[1..]))
  }

  /** The check `interval=` runs on a non-nil value. */
  function ValidInterval(s: string): (r: bool)
    ensures r <==> IntervalGrammar(s)
  {
    |s| >= 2 && s[|s| - 1] in IntervalUnits && AllDigits(s[..|s| - 1])
  }

  /** A date histogram over `field`, with no interval, zone or children. */
  function NewDateHistogram(name: string, field: string): (r: AggNode)
    ensures r.DateHistogram? && r.name == name && r.field == field
    ensures r.interval.None? && r.timeZone.None? && r.aggs == []
  {
    DateHistogram(name, field, None, None, [])
  }

  /** `interval=`: `nil` or a value in the interval grammar. */
  function SetInterval(n: AggNode, v: Option<string>): (r: Result<AggNode, Error>)
    requires n.DateHistogram?
    ensures r.Success? <==> (v.None? || IntervalGrammar(v.value))
    ensures r.Success? ==> r.value == n.(interval := v)
    ensures r.Failure? ==> r.error == InvalidInterval(v.value)
  {
    match v
    case None => Success(n.(interval := None))
    case Some(s) => if ValidInterval(s) then Success(n.(interval := v)) else Failure(InvalidInterval(s))
  }

  /** `time_zone=`: `nil` or a time-zone object; anything else is refused. */
  function SetTimeZone(n: AggNode, z: ZoneArg): (r: Result<AggNode, Error>)
    requires n.DateHistogram?
    ensures r.Success? <==> !z.OtherValue?
    ensures z.NilZone? ==> r == Success(n.(timeZone := None))
    ensures z.ZoneObject? ==> r == Success(n.(timeZone := Some(z.zone)))
  {
    match z
    case NilZone => Success(n.(timeZone := None))
    case ZoneObject(zone) => Success(n.(timeZone := Some(zone)))
    case OtherValue(v) => Failure(InvalidTimeZone(v))
  }

  // ---------------------------------------------------------------------
  // Children

  /** No two children share a name. */
  ghost predicate UniqueNames(cs: seq<AggNode>)
  {
    forall i, j :: 0 <= i < j < |cs| ==> cs[i].name != cs[j].name
  }

  /** The names of the children `cs`. */
  ghost function ChildNames(cs: seq<AggNode>): set<string>
  {
    set i | 0 <= i < |cs| :: cs[i].name
  }

  /** The child registered under `name`, if any. */
  function Child(cs: seq<AggNode>, name: string): (r: Option<AggNode>)
    ensures r.None? <==> forall i :: 0 <= i < |cs| ==> cs[i].name != name
    ensures r.Some? ==> r.value in cs && r.value.name == name
  {
    if cs == [] then None
    else if cs[0].name == name then Some(cs[0])
    else Child(cs[1..], name)
  }

  /** Looking up in `[x] + xs` answers `x` for its own name and defers to
      `xs` for every other name. */
  lemma ChildCons(x: AggNode, xs: seq<AggNode>)
    ensures forall n :: Child([x] + xs, n) == if x.name == n then Some(x) else Child(xs, n)
  {
    assert ([x] + xs)[1..] == xs;
  }

  /** Replaces the child named like `c` where it stands, or appends `c`. */
  function UpsertChild(cs: seq<AggNode>, c: AggNode): (r: seq<AggNode>)
    ensures Child(r, c.name) == Some(c)
    ensures forall n :: n != c.name ==> Child(r, n) == Child(cs, n)
    ensures (forall i :: 0 <= i < |cs| ==> cs[i].name != c.name) ==> r == cs + [c]
    ensures forall g :: g in r ==> g == c || g in cs
  {
    if cs == [] then
      ChildCons(c, []);
      [c]
    else
      var x, xs := cs[0], cs[1..];
      assert cs == [x] + xs;
      ChildCons(x, xs);
      if x.name == c.name then
        ChildCons(c, xs);
        [c] + xs
      else
        var rest := UpsertChild(xs, c);
        ChildCons(x, rest);
        assert [x] + (xs + [c]) == cs + [c];
        assert forall g :: g in [x] + rest ==> g == x || g in rest;
        [x] + rest
  }

  /** `aggregate(child)`: registers `child` under its name; a later child of
      the same name replaces the earlier one. */
  function Aggregate(n: AggNode, child: AggNode): (r: AggNode)
    requires n.DateHistogram?
    ensures r.DateHistogram? && Child(r.aggs, child.name) == Some(child)
    ensures forall m :: m != child.name ==> Child(r.aggs, m) == Child(n.aggs, m)
    ensures r.field == n.field && r.interval == n.interval && r.timeZone == n.timeZone
    ensures r == n.(aggs := r.aggs)
  {
    n.(aggs := UpsertChild(n.aggs, child))
  }

  // ---------------------------------------------------------------------
  // Rendering

  /** The body of the `date_histogram` key: the field, and the interval and
      time zone only when they are set. */
  function HistogramBody(n: AggNode): (r: map<string, Value>)
    requires n.DateHistogram?
    ensures r.Keys == {"field"}
                      + (if n.interval.Some? then {"interval"} else {})
                      + (if n.timeZone.Some? then {"time_zone"} else {})
    ensures r["field"] == Str(n.field)
    ensures n.interval.Some? ==> r["interval"] == Str(n.interval.value)
    ensures n.timeZone.Some? ==> r["time_zone"] == Str(TimeZones.FormattedOffset(n.timeZone.value))
  {
    map["field" := Str(n.field)]
    + (if n.interval.Some? then map["interval" := Str(n.interval.value)] else map[])
    + (if n.timeZone.Some?
       then map["time_zone" := Str(TimeZones.FormattedOffset(n.timeZone.value))] else map[])
  }

  /** `render`. */
  function Render(n: AggNode): (r: Value)
    ensures n.Stub? ==> r == n.rendered
    ensures n.DateHistogram? ==> r.Obj? && r.members.Keys == {"date_histogram"} + (if n.aggs == [] then {} else {"aggs"})
    ensures n.DateHistogram? ==> r.members["date_histogram"] == Obj(HistogramBody(n))
    decreases n
  {
    match n
    case Stub(_, rendered) => rendered
    case DateHistogram(_, _, _, _, aggs) =>
      Obj(map["date_histogram" := Obj(HistogramBody(n))]
          + (if aggs == [] then map[] else map["aggs" := Obj(RenderChildren(aggs))]))
  }

  /** The `aggs` object: each child's rendering under its name. */
  function RenderChildren(cs: seq<AggNode>): map<string, Value>
    decreases cs
  {
    if cs == [] then map[]
    else map[cs[0].name := Render(cs[0])] + RenderChildren(cs[1..])
  }

  // ---------------------------------------------------------------------
  // Decoding

  /** `handle_result`: a histogram decodes `{"buckets" => [...]}` into one
      bucket per raw entry, in order; any other node decodes to its input. */
  function HandleResult(n: AggNode, raw: Value): (r: Result<AggResult, Error>)
    ensures n.Stub? ==> r == Success(Decoded(raw))
    ensures n.DateHistogram? && RawBuckets(raw).Failure? ==> r == Failure(MalformedResult)
    ensures n.DateHistogram? && r.Success? ==> r.value.Buckets? && |r.value.buckets| == |RawBuckets(raw).value|
    decreases n
  {
    match n
    case Stub(_, _) => Success(Decoded(raw))
    case DateHistogram(_, _, _, _, aggs) =>
      var items :- RawBuckets(raw);
      var bs :- DecodeBuckets(aggs, items);
      Success(Buckets(bs))
  }

  /** The raw bucket array of a histogram response. */
  function RawBuckets(raw: Value): (r: Result<seq<Value>, Error>)
  {
    if raw.Obj? && "buckets" in raw.members && raw.members["buckets"].Arr?
    then Success(raw.members["buckets"].items)
    else Failure(MalformedResult)
  }

  function DecodeBuckets(cs: seq<AggNode>, items: seq<Value>): (r: Result<seq<Bucket>, Error>)
    ensures r.Success? ==> |r.value| == |items|
    decreases cs, |items| + 1
  {
    if items == [] then Success([])
    else
      var b :- DecodeBucket(cs, items[0]);
      var rest :- DecodeBuckets(cs, items[1..]);
      Success([b] + rest)
  }

  /** One bucket: `key` copied from the entry, each child decoding the
      entry's value under the child's name. */
  function DecodeBucket(cs: seq<AggNode>, item: Value): Result<Bucket, Error>
    decreases cs, 1
  {
    if !item.Obj? then Failure(MalformedResult)
    else
      var aggs :- DecodeChildren(cs, item);
      Success(Bucket(Member(item, "key"), aggs))
  }

  function DecodeChildren(cs: seq<AggNode>, item: Value): Result<map<string, AggResult>, Error>
    decreases cs, 0
  {
    if cs == [] then Success(map[])
    else
      var v :- HandleResult(cs[0], Member(item, cs[0].name));
      var rest :- DecodeChildren(cs[1..], item);
      Success(map[cs[0].name := v] + rest)
  }

  /** `bucket[name]`: the child aggregation's result in a bucket. */
  function BucketGet(b: Bucket, name: string): (r: Option<AggResult>)
    ensures r.Some? <==> name in b.aggs
    ensures r.Some? ==> r.value == b.aggs[name]
  {
    if name in b.aggs then Some(b.aggs[name]) else None
  }

  /** `count` of a decoded bucket collection. */
  function Count(r: AggResult): nat
    requires r.Buckets?
  {
    |r.buckets|
  }
}

=== FILE: date_histogram_lemmas.dfy ===
/** Properties of `DateHistograms`: setter validation, the shape of the
    rendered request, and bucket decoding, with the specs' scenarios as
    instances. */
module DateHistogramProperties {
  import opened Wrappers
  import opened Json
  import TimeZones
  import opened DateHistograms

  // ---------------------------------------------------------------------
  // Setters

  /** `interval=` refuses `'1j'` and accepts `'2d'` and `nil`. */
  lemma IntervalExamples(n: AggNode)
    requires n.DateHistogram?
    ensures SetInterval(n, Some("1j")) == Failure(InvalidInterval("1j"))
    ensures SetInterval(n, Some("2d")) == Success(n.(interval := Some("2d")))
    ensures SetInterval(n, None) == Success(n.(interval := None))
  {
    assert 'j' !in IntervalUnits;
  }

  /** `time_zone=` refuses the bare string `'+00:00'` and accepts the UTC
      zone object and `nil`. */
  lemma TimeZoneExamples(n: AggNode)
    requires n.DateHistogram?
    ensures SetTimeZone(n, OtherValue(Str("+00:00"))) == Failure(InvalidTimeZone(Str("+00:00")))
    ensures SetTimeZone(n, ZoneObject(TimeZones.Utc)) == Success(n.(timeZone := Some(TimeZones.Utc)))
    ensures SetTimeZone(n, NilZone) == Success(n.(timeZone := None))
  {
  }

  // ---------------------------------------------------------------------
  // Child names

  lemma ChildNamesCons(cs: seq<AggNode>)
    requires cs != []
    ensures ChildNames(cs) == {cs[0].name} + ChildNames(cs[1..])
  {
    forall m | m in ChildNames(cs) ensures m in {cs[0].name} + ChildNames(cs[1..]) {
      var i :| 0 <= i < |cs| && cs[i].name == m;
      if i > 0 { assert cs[1..][i - 1].name == m; }
    }
  }

  lemma UniqueTail(cs: seq<AggNode>)
    requires cs != [] && UniqueNames(cs)
    ensures UniqueNames(cs[1..]) && cs[0].name !in ChildNames(cs[1..])
  {
    var tail := cs[1..];
    forall i, j | 0 <= i < j < |tail| ensures tail[i].name != tail[j].name {
      assert tail[i] == cs[i + 1] && tail[j] == cs[j + 1];
    }
    forall i | 0 <= i < |tail| ensures tail[i].name != cs[0].name {
      assert tail[i] == cs[i + 1];
    }
  }

  // ---------------------------------------------------------------------
  // Rendering

  /** The `aggs` object holds one key per child, each child's rendering. */
  lemma {:induction false} RenderChildrenSpec(cs: seq<AggNode>)
    ensures RenderChildren(cs).Keys == ChildNames(cs)
    ensures UniqueNames(cs) ==> forall i :: 0 <= i < |cs| ==> RenderChildren(cs)[cs[i].name] == Render(cs[i])
  {
    if cs != [] {
      var tail := cs[1..];
      RenderChildrenSpec(tail);
      ChildNamesCons(cs);
      if UniqueNames(cs) {
        UniqueTail(cs);
        forall i | 0 <= i < |cs| ensures RenderChildren(cs)[cs[i].name] == Render(cs[i]) {
          if i > 0 {
            assert tail[i - 1] == cs[i];
            assert cs[i].name in RenderChildren(tail);
          }
        }
      }
    }
  }

  /** `render` of a histogram: the `date_histogram` body, and an `aggs`
      object exactly when children are registered, holding each child's
      rendering under its name. */
  lemma RenderShape(n: AggNode)
    requires n.DateHistogram?
    ensures Render(n).Obj?
    ensures Render(n).members.Keys == {"date_histogram"} + (if n.aggs == [] then {} else {"aggs"})
    ensures Render(n).members["date_histogram"] == Obj(HistogramBody(n))
    ensures n.aggs != [] ==>
              && Render(n).members["aggs"].Obj?
              && Render(n).members["aggs"].members.Keys == ChildNames(n.aggs)
    ensures n.aggs != [] && UniqueNames(n.aggs) ==>
              forall i :: 0 <= i < |n.aggs| ==> Render(n).members["aggs"].members[n.aggs[i].name] == Render(n.aggs[i])
  {
    var r := Render(n);
    assert r.members.Keys == {"date_histogram"} + (if n.aggs == [] then {} else {"aggs"});
    if n.aggs != [] {
      assert r.members["aggs"] == Obj(RenderChildren(n.aggs));
      RenderChildrenSpec(n.aggs);
    }
  }

  /** With only the field set, `render` is `{'date_histogram' => {'field' => f}}`. */
  lemma RenderFieldOnly(name: string, field: string)
    ensures Render(NewDateHistogram(name, field)) == Obj(map["date_histogram" := Obj(map["field" := Str(field)])])
  {
    var n := NewDateHistogram(name, field);
    assert HistogramBody(n) == map["field" := Str(field)];
  }

  /** Two histograms with the same children render alike except for the
      `date_histogram` body. */
  lemma RenderWithBody(n: AggNode, n': AggNode)
    requires n.DateHistogram? && n'.DateHistogram? && n'.aggs == n.aggs
    ensures Render(n') == Obj(Render(n).members["date_histogram" := Obj(HistogramBody(n'))])
  {
    var rest: map<string, Value> := if n.aggs == [] then map[] else map["aggs" := Obj(RenderChildren(n.aggs))];
    assert "date_histogram" !in rest;
    assert Render(n).members == map["date_histogram" := Obj(HistogramBody(n))] + rest;
    assert Render(n').members == map["date_histogram" := Obj(HistogramBody(n'))] + rest;
  }

  /** Setting an interval sets exactly `'interval' => i` in the body, adding
      it or replacing an earlier interval, and changes nothing else. */
  lemma RenderSetsInterval(n: AggNode, i: string)
    requires n.DateHistogram? && ValidInterval(i)
    ensures SetInterval(n, Some(i)).Success?
    ensures Render(SetInterval(n, Some(i)).value)
              == Obj(Render(n).members["date_histogram" := Obj(HistogramBody(n)["interval" := Str(i)])])
  {
    var n' := SetInterval(n, Some(i)).value;
    assert HistogramBody(n') == HistogramBody(n)["interval" := Str(i)];
    RenderWithBody(n, n');
  }

  /** Setting a time zone sets exactly `'time_zone' => <formatted offset>` in
      the body, adding it or replacing an earlier zone. */
  lemma RenderSetsTimeZone(n: AggNode, z: TimeZones.Zone)
    requires n.DateHistogram?
    ensures SetTimeZone(n, ZoneObject(z)).Success?
    ensures Render(SetTimeZone(n, ZoneObject(z)).value)
              == Obj(Render(n).members["date_histogram" := Obj(HistogramBody(n)["time_zone" := Str(TimeZones.FormattedOffset(z))])])
  {
    var n' := SetTimeZone(n, ZoneObject(z)).value;
    assert HistogramBody(n') == HistogramBody(n)["time_zone" := Str(TimeZones.FormattedOffset(z))];
    RenderWithBody(n, n');
  }

  /** The specs' interval rendering: `interval = '1d'`. */
  lemma RenderIntervalExample(name: string)
    ensures SetInterval(NewDateHistogram(name, "foo"), Some("1d")).Success?
    ensures Render(SetInterval(NewDateHistogram(name, "foo"), Some("1d")).value)
              == Obj(map["date_histogram" := Obj(map["field" := Str("foo"), "interval" := Str("1d")])])
  {
    var n := NewDateHistogram(name, "foo");
    RenderFieldOnly(name, "foo");
    assert HistogramBody(n) == map["field" := Str("foo")];
    RenderSetsInterval(n, "1d");
  }

  /** The specs' time-zone rendering: the UTC zone. */
  lemma RenderTimeZoneExample(name: string)
    ensures Render(SetTimeZone(NewDateHistogram(name, "foo"), ZoneObject(TimeZones.Utc)).value)
              == Obj(map["date_histogram" := Obj(map["field" := Str("foo"), "time_zone" := Str("+00:00")])])
  {
    var n := NewDateHistogram(name, "foo");
    RenderFieldOnly(name, "foo");
    assert HistogramBody(n) == map["field" := Str("foo")];
    RenderSetsTimeZone(n, TimeZones.Utc);
    TimeZones.UtcOffsetString();
  }

  /** The specs' child aggregation: a child `bar` rendering to `'qux'` adds
      `'aggs' => {'bar' => 'qux'}` beside the body. */
  lemma RenderChildExample(name: string)
    ensures Render(Aggregate(NewDateHistogram(name, "foo"), Stub("bar", Str("qux"))))
              == Obj(map["date_histogram" := Obj(map["field" := Str("foo")]), "aggs" := Obj(map["bar" := Str("qux")])])
  {
    var n := Aggregate(NewDateHistogram(name, "foo"), Stub("bar", Str("qux")));
    assert n.aggs == [Stub("bar", Str("qux"))];
    assert HistogramBody(n) == map["field" := Str("foo")];
    assert n.aggs[1..] == [];
    assert RenderChildren(n.aggs) == map["bar" := Str("qux")];
  }

  /** Registering a child keeps child names unique. */
  lemma {:induction false} UpsertChildKeepsUnique(cs: seq<AggNode>, c: AggNode)
    requires UniqueNames(cs)
    ensures UniqueNames(UpsertChild(cs, c))
  {
    if cs != [] && cs[0].name != c.name {
      UpsertChildKeepsUnique(cs[1..], c);
      var r := UpsertChild(cs, c);
      var rest := UpsertChild(cs[1..], c);
      assert r == [cs[0]] + rest;
      forall i, j | 0 <= i < j < |r| ensures r[i].name != r[j].name {
        if i == 0 {
          assert r[j] == rest[j - 1] && rest[j - 1] in rest;
          if r[j] != c {
            var k :| 0 <= k < |cs[1..]| && cs[1..][k] == r[j];
            assert cs[k + 1] == r[j];
          }
        } else {
          assert r[i] == rest[i - 1] && r[j] == rest[j - 1];
        }
      }
    }
  }

  // ---------------------------------------------------------------------
  // Decoding

  /** The children's results succeed exactly when every child's decoding of
      its own entry does; they then hold one result per child name. */
  lemma {:induction false} DecodeChildrenSpec(cs: seq<AggNode>, item: Value)
    ensures DecodeChildren(cs, item).Success? <==>
              forall i :: 0 <= i < |cs| ==> HandleResult(cs[i], Member(item, cs[i].name)).Success?
    ensures DecodeChildren(cs, item).Success? ==>
              DecodeChildren(cs, item).value.Keys == ChildNames(cs)
    ensures DecodeChildren(cs, item).Success? && UniqueNames(cs) ==>
              forall i :: 0 <= i < |cs| ==>
                HandleResult(cs[i], Member(item, cs[i].name)) == Success(DecodeChildren(cs, item).value[cs[i].name])
  {
    if cs != [] {
      var tail := cs[1..];
      DecodeChildrenSpec(tail, item);
      var r := DecodeChildren(cs, item);
      forall i | 0 <= i < |tail| ensures tail[i] == cs[i + 1] { }
      if r.Success? {
        var rest := DecodeChildren(tail, item).value;
        ChildNamesCons(cs);
        if UniqueNames(cs) {
          UniqueTail(cs);
          forall i | 0 <= i < |cs| ensures HandleResult(cs[i], Member(item, cs[i].name)) == Success(r.value[cs[i].name]) {
            if i > 0 {
              assert tail[i - 1] == cs[i];
              assert cs[i].name in rest;
            }
          }
        }
      }
    }
  }

  /** Decoding the bucket array yields one bucket per raw entry, in order,
      and succeeds exactly when every entry decodes. */
  lemma {:induction false} DecodeBucketsSpec(cs: seq<AggNode>, items: seq<Value>)
    ensures DecodeBuckets(cs, items).Success? <==> forall i :: 0 <= i < |items| ==> DecodeBucket(cs, items[i]).Success?
    ensures DecodeBuckets(cs, items).Success? ==>
              && |DecodeBuckets(cs, items).value| == |items|
              && forall i :: 0 <= i < |items| ==> DecodeBuckets(cs, items).value[i] == DecodeBucket(cs, items[i]).value
    decreases |items|
  {
    if items != [] {
      DecodeBucketsSpec(cs, items[1..]);
      forall i | 0 <= i < |items[1..]| ensures items[1..][i] == items[i + 1] { }
    }
  }

  /** `handle_result` of a histogram: it succeeds exactly when the response
      holds a `buckets` array whose every entry decodes; then there is one
      bucket per raw entry, in order, whose `key` is the entry's `key` and
      whose result under each child's name is that child's decoding of the
      entry's value under the same name. */
  lemma HandleResultSpec(n: AggNode, raw: Value)
    requires n.DateHistogram?
    ensures HandleResult(n, raw).Success? <==>
              && RawBuckets(raw).Success?
              && forall i :: 0 <= i < |RawBuckets(raw).value| ==> DecodeBucket(n.aggs, RawBuckets(raw).value[i]).Success?
    ensures HandleResult(n, raw).Success? ==>
              var items := RawBuckets(raw).value;
              var r := HandleResult(n, raw).value;
              && r.Buckets?
              && Count(r) == |items|
              && (forall i :: 0 <= i < |items| ==> r.buckets[i].key == Member(items[i], "key"))
              && (UniqueNames(n.aggs) ==>
                    forall i, j :: 0 <= i < |items| && 0 <= j < |n.aggs| ==>
                      && BucketGet(r.buckets[i], n.aggs[j].name).Some?
                      && HandleResult(n.aggs[j], Member(items[i], n.aggs[j].name)) == Success(BucketGet(r.buckets[i], n.aggs[j].name).value))
  {
    if RawBuckets(raw).Success? {
      var items := RawBuckets(raw).value;
      DecodeBucketsSpec(n.aggs, items);
      if HandleResult(n, raw).Success? {
        var r := HandleResult(n, raw).value;
        forall i | 0 <= i < |items|
          ensures r.buckets[i].key == Member(items[i], "key")
          ensures UniqueNames(n.aggs) ==> forall j :: 0 <= j < |n.aggs| ==>
                    && BucketGet(r.buckets[i], n.aggs[j].name).Some?
                    && HandleResult(n.aggs[j], Member(items[i], n.aggs[j].name)) == Success(BucketGet(r.buckets[i], n.aggs[j].name).value)
        {
          DecodeChildrenSpec(n.aggs, items[i]);
        }
      }
    }
  }

  /** A response without a `buckets` array is refused. */
  lemma MalformedResponseFails(n: AggNode, raw: Value)
    requires n.DateHistogram?
    requires !raw.Obj? || "buckets" !in raw.members || !raw.members["buckets"].Arr?
    ensures HandleResult(n, raw) == Failure(MalformedResult)
  {
  }

  /** The specs' decodings: an empty `buckets` array gives an empty
      collection; `[{'key' => 100}]` gives one bucket whose key is 100. */
  lemma DecodeExamples(name: string)
    ensures HandleResult(NewDateHistogram(name, "foo"), Obj(map["buckets" := Arr([])])) == Success(Buckets([]))
    ensures var r := HandleResult(NewDateHistogram(name, "foo"), Obj(map["buckets" := Arr([Obj(map["key" := Int(100)])])]));
            && r.Success? && r.value.Buckets? && Count(r.value) == 1 && r.value.buckets[0].key == Int(100)
  {
    var n := NewDateHistogram(name, "foo");
    var item := Obj(map["key" := Int(100)]);
    assert Member(item, "key") == Int(100);
    assert DecodeBucket(n.aggs, item) == Success(Bucket(Int(100), map[]));
    assert [item][1..] == [];
    assert DecodeBuckets(n.aggs, []) == Success([]);
    assert [Bucket(Int(100), map[])] + [] == [Bucket(Int(100), map[])];
    assert DecodeBuckets(n.aggs, [item]) == Success([Bucket(Int(100), map[])]);
  }

  /** The specs' child decoding: with a child `bar` that returns its input,
      the first bucket's `[:bar]` is the raw entry's `'bar'` value. */
  lemma DecodeChildExample(name: string)
    ensures var n := Aggregate(NewDateHistogram(name, "foo"), Stub("bar", Str("qux")));
            var r := HandleResult(n, Obj(map["buckets" := Arr([Obj(map["key" := Int(2000), "bar" := Sym("bar")])])]));
            && r.Success? && r.value.Buckets? && Count(r.value) == 1
            && BucketGet(r.value.buckets[0], "bar") == Some(Decoded(Sym("bar")))
  {
    var child := Stub("bar", Str("qux"));
    var n := Aggregate(NewDateHistogram(name, "foo"), child);
    assert n.aggs == [child];
    var item := Obj(map["key" := Int(2000), "bar" := Sym("bar")]);
    assert Member(item, "bar") == Sym("bar");
    assert [child][1..] == [];
    assert DecodeChildren(n.aggs, item) == Success(map["bar" := Decoded(Sym("bar"))] + map[]);
    assert map["bar" := Decoded(Sym("bar"))] + map[] == map["bar" := Decoded(Sym("bar"))];
    assert Member(item, "key") == Int(2000);
    assert DecodeBucket(n.aggs, item) == Success(Bucket(Int(2000), map["bar" := Decoded(Sym("bar"))]));
    assert [item][1..] == [];
    assert DecodeBuckets(n.aggs, []) == Success([]);
    var b := Bucket(Int(2000), map["bar" := Decoded(Sym("bar"))]);
    assert [b] + [] == [b];
    assert DecodeBuckets(n.aggs, [item]) == Success([Bucket(Int(2000), map["bar" := Decoded(Sym("bar"))])]);
  }

  // ---------------------------------------------------------------------
  // Round trip with the engine's response

  /** The raw value a decoded child result came from. */
  function RawOf(r: AggResult): Value
  {
    match r
    case Decoded(v) => v
    case Buckets(_) => Null
  }

  /** The entry the engine sends for bucket `b` of a histogram with children
      `cs`: the bucket's key and each child's raw value under its name. */
  function EncodeBucket(cs: seq<AggNode>, b: Bucket): Value
  {
    Obj(map["key" := b.key] + EncodeChildren(cs, b))
  }

  function EncodeChildren(cs: seq<AggNode>, b: Bucket): map<string, Value>
  {
    if cs == [] then map[]
    else map[cs[0].name := if cs[0].name in b.aggs then RawOf(b.aggs[cs[0].name]) else Null]
         + EncodeChildren(cs[1..], b)
  }

  function EncodeBuckets(cs: seq<AggNode>, bs: seq<Bucket>): (r: seq<Value>)
    ensures |r| == |bs|
    ensures forall i :: 0 <= i < |bs| ==> r[i] == EncodeBucket(cs, bs[i])
  {
    if bs == [] then [] else [EncodeBucket(cs, bs[0])] + EncodeBuckets(cs, bs[1..])
  }

  /** A bucket a histogram with leaf children can produce: a result for
      exactly the children's names, each a decoded value. */
  ghost predicate LeafBucket(cs: seq<AggNode>, b: Bucket)
  {
    && b.aggs.Keys == ChildNames(cs)
    && forall i :: 0 <= i < |cs| ==> b.aggs[cs[i].name].Decoded?
  }

  lemma {:induction false} EncodeChildrenSpec(cs: seq<AggNode>, b: Bucket)
    requires UniqueNames(cs)
    ensures EncodeChildren(cs, b).Keys == ChildNames(cs)
    ensures forall i :: 0 <= i < |cs| ==>
              EncodeChildren(cs, b)[cs[i].name] == (if cs[i].name in b.aggs then RawOf(b.aggs[cs[i].name]) else Null)
  {
    if cs != [] {
      var tail := cs[1..];
      UniqueTail(cs);
      EncodeChildrenSpec(tail, b);
      ChildNamesCons(cs);
      forall i | 0 <= i < |cs|
        ensures EncodeChildren(cs, b)[cs[i].name] == (if cs[i].name in b.aggs then RawOf(b.aggs[cs[i].name]) else Null)
      {
        if i > 0 {
          assert tail[i - 1] == cs[i];
        }
      }
    }
  }

  /** Each leaf child decodes its value in the engine's entry back to the
      bucket's result. */
  lemma EncodedChildrenDecode(cs: seq<AggNode>, b: Bucket)
    requires UniqueNames(cs)
    requires forall i :: 0 <= i < |cs| ==> cs[i].Stub?
    requires LeafBucket(cs, b)
    ensures DecodeChildren(cs, EncodeBucket(cs, b)) == Success(b.aggs)
  {
    var item := EncodeBucket(cs, b);
    forall i | 0 <= i < |cs| ensures HandleResult(cs[i], Member(item, cs[i].name)) == Success(b.aggs[cs[i].name]) {
      EncodedChildDecodes(cs, b, i);
    }
    DecodeChildrenSpec(cs, item);
    var aggs := DecodeChildren(cs, item).value;
    assert aggs.Keys == b.aggs.Keys;
    forall k | k in aggs ensures aggs[k] == b.aggs[k] {
      var i :| 0 <= i < |cs| && cs[i].name == k;
    }
    SameEntries(aggs, b.aggs);
  }

  /** Two maps with the same keys and the same value at every key are equal. */
  lemma SameEntries<K, V>(m: map<K, V>, m': map<K, V>)
    requires m.Keys == m'.Keys && forall k :: k in m ==> m[k] == m'[k]
    ensures m == m'
  {
  }

  lemma EncodedChildDecodes(cs: seq<AggNode>, b: Bucket, i: nat)
    requires UniqueNames(cs) && i < |cs| && cs[i].Stub?
    requires LeafBucket(cs, b)
    ensures HandleResult(cs[i], Member(EncodeBucket(cs, b), cs[i].name)) == Success(b.aggs[cs[i].name])
  {
    EncodeChildrenSpec(cs, b);
    assert cs[i].name in EncodeChildren(cs, b);
    assert Member(EncodeBucket(cs, b), cs[i].name) == RawOf(b.aggs[cs[i].name]);
  }

  /** Decoding the engine's entry for a leaf bucket gives the bucket back. */
  lemma DecodeEncodedBucket(cs: seq<AggNode>, b: Bucket)
    requires UniqueNames(cs)
    requires forall i :: 0 <= i < |cs| ==> cs[i].Stub? && cs[i].name != "key"
    requires LeafBucket(cs, b)
    ensures DecodeBucket(cs, EncodeBucket(cs, b)) == Success(b)
  {
    EncodeChildrenSpec(cs, b);
    assert "key" !in EncodeChildren(cs, b);
    assert Member(EncodeBucket(cs, b), "key") == b.key;
    EncodedChildrenDecode(cs, b);
  }

  /** Round trip: a histogram whose children are leaves decodes the engine's
      response for a bucket sequence back to exactly that sequence. */
  lemma HandleResultRoundTrip(n: AggNode, bs: seq<Bucket>)
    requires n.DateHistogram? && UniqueNames(n.aggs)
    requires forall i :: 0 <= i < |n.aggs| ==> n.aggs[i].Stub? && n.aggs[i].name != "key"
    requires forall i :: 0 <= i < |bs| ==> LeafBucket(n.aggs, bs[i])
    ensures HandleResult(n, Obj(map["buckets" := Arr(EncodeBuckets(n.aggs, bs))])) == Success(Buckets(bs))
  {
    var items := EncodeBuckets(n.aggs, bs);
    forall i | 0 <= i < |bs| ensures DecodeBucket(n.aggs, items[i]) == Success(bs[i]) {
      DecodeEncodedBucket(n.aggs, bs[i]);
    }
    DecodeBucketsSpec(n.aggs, items);
    assert DecodeBuckets(n.aggs, items).value == bs;
  }
}

=== FILE: definition.dfy ===
/** `Elastic::Core::Definition` and the fields it registers.

    A definition describes how a family of indexable target types maps onto
    search-engine fields: the targets, an insertion-ordered collection of
    uniquely named fields, custom options with indifferent key access, and a
    frozen flag. A field may own a nested definition (an object field), which
    makes `Field` and `Definition` mutually recursive.

    Ruby's mutation-in-place becomes value passing: every operation that can
    raise returns a `Result`, every operation that answers `nil` returns an
    `Option`. */
module Definitions {
  import opened Wrappers
  import opened Json

  /** The errors the definition raises (all `RuntimeError`s in Ruby). */
  datatype Error =
    | NoTargets
    | NotIndexable(target: string)
    | MixedModes
    | FrozenError
    | NoMappingType(field: string)
    | InferenceFailed(field: string, reason: string)

  /** A backing target type. Whether the class includes `Elastic::Indexable`
      and its `elastic_mode` class attribute are recorded as plain data. */
  datatype Target = Target(name: string, indexable: bool, mode: string)

  /** A key of `custom_options`: a Ruby symbol or a string. */
  datatype Key = SymKey(name: string) | StrKey(name: string)

  /** The `custom_options` hash: entries keyed by the canonical string of the
      key, and the hash's own frozen flag. */
  datatype CustomOptions = CustomOptions(entries: map<string, Value>, frozen: bool)

  /** One mapped attribute: its name, declared mapping options, whether its
      mapping may be inferred from the main target, an optional nested
      definition, and whether it has been frozen. */
  datatype Field = Field(
    name: string,
    options: map<string, Value>,
    inferenceEnabled: bool,
    nested: Option<Definition>,
    frozen: bool)

  datatype Definition = Definition(
    targets: seq<Target>,
    fields: seq<Field>,
    customOptions: CustomOptions,
    frozen: bool)

  /** The target's field-options inference (`elastic_field_options_for`, run
      through the infer-field-options command): options, or a failure reason. */
  type Inferrer = (Target, string) -> Result<map<string, Value>, string>

  // ---------------------------------------------------------------------
  // Construction and targets

  /** `Definition.new`: no targets yet, no fields, empty unfrozen options. */
  function NewDefinition(): (r: Definition)
    ensures r.fields == [] && r.targets == [] && r.customOptions.entries == map[]
    ensures !r.frozen && !r.customOptions.frozen
  {
    Definition([], [], CustomOptions(map[], false), false)
  }

  /** A scalar field as the specs build it: no nested definition, not frozen. */
  function NewField(name: string, options: map<string, Value>, inferenceEnabled: bool): Field
  {
    Field(name, options, inferenceEnabled, None, false)
  }

  /** `targets=` stores the list as given; nothing is checked until it is read. */
  function SetTargets(d: Definition, ts: seq<Target>): (r: Definition)
    ensures r.targets == ts
    ensures r.fields == d.fields && r.customOptions == d.customOptions && r.frozen == d.frozen
  {
    d.(targets := ts)
  }

  /** What a readable target list must satisfy: at least one target, every
      target indexable, all sharing one `elastic_mode`. */
  ghost predicate ValidTargets(ts: seq<Target>)
  {
    && |ts| > 0
    && (forall i :: 0 <= i < |ts| ==> ts[i].indexable)
    && (forall i :: 0 <= i < |ts| ==> ts[i].mode == ts[0].mode)
  }

  /** The first target that is not indexable, if any. */
  function FindNotIndexable(ts: seq<Target>): (r: Option<Target>)
    ensures r.None? <==> forall i :: 0 <= i < |ts| ==> ts[i].indexable
    ensures r.Some? ==> r.value in ts && !r.value.indexable
  {
    if ts == [] then None
    else if !ts[0].indexable then Some(ts[0])
    else FindNotIndexable(ts[1..])
  }

  /** Whether every target uses `mode`. */
  predicate AllInMode(ts: seq<Target>, mode: string)
    ensures AllInMode(ts, mode) <==> forall i :: 0 <= i < |ts| ==> ts[i].mode == mode
  {
    ts == [] || (ts[0].mode == mode && AllInMode(ts[1..], mode))
  }

  /** Reading `targets`: the stored list once it has been validated; the
      error is raised here, on read, not when the list is assigned. */
  function Targets(d: Definition): (r: Result<seq<Target>, Error>)
    ensures r.Success? <==> ValidTargets(d.targets)
    ensures r.Success? ==> r.value == d.targets
    ensures (|d.targets| > 0 && exists i :: 0 <= i < |d.targets| && !d.targets[i].indexable) ==> r.Failure? && r.error.NotIndexable?
  {
    if |d.targets| == 0 then Failure(NoTargets)
    else match FindNotIndexable(d.targets)
      case Some(t) => Failure(NotIndexable(t.name))
      case None =>
        if AllInMode(d.targets, d.targets[0].mode) then Success(d.targets) else Failure(MixedModes)
  }

  /** `main_target`: the first of the validated targets. */
  function MainTarget(d: Definition): (r: Result<Target, Error>)
    ensures r.Success? <==> ValidTargets(d.targets)
    ensures r.Success? ==> r.value == d.targets[0]
  {
    var ts :- Targets(d);
    Success(ts[0])
  }

  // ---------------------------------------------------------------------
  // Custom options (indifferent access)

  /** The one canonical string a key is stored under: `:foo` and `'foo'` agree. */
  function KeyString(k: Key): string
  {
    match k
    case SymKey(n) => n
    case StrKey(n) => n
  }

  /** `custom_options[k]`. */
  function GetOption(o: CustomOptions, k: Key): (r: Option<Value>)
    ensures r.Some? <==> KeyString(k) in o.entries
    ensures r.Some? ==> r.value == o.entries[KeyString(k)]
  {
    var s := KeyString(k);
    if s in o.entries then Some(o.entries[s]) else None
  }

  /** `custom_options[k] = v`: fails once the hash is frozen. */
  function SetOption(o: CustomOptions, k: Key, v: Value): (r: Result<CustomOptions, Error>)
    ensures r.Success? <==> !o.frozen
    ensures r.Success? ==> !r.value.frozen && GetOption(r.value, k) == Some(v)
    ensures r.Success? ==> forall k' :: KeyString(k') != KeyString(k) ==> GetOption(r.value, k') == GetOption(o, k')
  {
    if o.frozen then Failure(FrozenError)
    else Success(o.(entries := o.entries[KeyString(k) := v]))
  }

  /** `definition.custom_options[k]`. */
  function GetCustomOption(d: Definition, k: Key): (r: Option<Value>)
    ensures r.Some? <==> KeyString(k) in d.customOptions.entries
    ensures r.Some? ==> r.value == d.customOptions.entries[KeyString(k)]
  {
    GetOption(d.customOptions, k)
  }

  /** `definition.custom_options[k] = v`, with the rest of the definition unchanged. */
  function SetCustomOption(d: Definition, k: Key, v: Value): (r: Result<Definition, Error>)
    ensures r.Success? <==> !d.customOptions.frozen
    ensures r.Success? ==> GetCustomOption(r.value, k) == Some(v)
    ensures r.Success? ==> !r.value.customOptions.frozen
    ensures r.Success? ==> forall k' :: KeyString(k') != KeyString(k) ==> GetCustomOption(r.value, k') == GetCustomOption(d, k')
    ensures r.Success? ==> r.value.fields == d.fields && r.value.targets == d.targets && r.value.frozen == d.frozen
  {
    var o :- SetOption(d.customOptions, k, v);
    Success(d.(customOptions := o))
  }

  // ---------------------------------------------------------------------
  // Fields

  /** The names of `fs`, in order. */
  function FieldNames(fs: seq<Field>): (r: seq<string>)
    ensures |r| == |fs|
    ensures forall i :: 0 <= i < |fs| ==> r[i] == fs[i].name
  {
    if fs == [] then [] else [fs[0].name] + FieldNames(fs[1..])
  }

  /** No two fields share a name (the keys of Ruby's field hash). */
  ghost predicate UniqueNames(fs: seq<Field>)
  {
    forall i, j :: 0 <= i < j < |fs| ==> fs[i].name != fs[j].name
  }

  /** The set of names of `fs`. */
  ghost function NameSet(fs: seq<Field>): set<string>
  {
    set i | 0 <= i < |fs| :: fs[i].name
  }

  /** The field registered under `name`, if any. */
  function Lookup(fs: seq<Field>, name: string): (r: Option<Field>)
    ensures r.None? <==> forall i :: 0 <= i < |fs| ==> fs[i].name != name
    ensures r.Some? ==> r.value in fs && r.value.name == name
  {
    if fs == [] then None
    else if fs[0].name == name then Some(fs[0])
    else Lookup(fs[1..], name)
  }

  /** `fields`: the registered fields in registration order. */
  function Fields(d: Definition): (r: seq<Field>)
    ensures forall i :: 0 <= i < |r| ==> HasField(d, r[i].name)
    ensures forall name :: HasField(d, name) ==> name in FieldNames(r)
  {
    d.fields
  }

  /** `has_field?(name)`: a field of that exact name is registered. */
  predicate HasField(d: Definition, name: string)
    ensures HasField(d, name) <==> Lookup(d.fields, name).Some?
  {
    exists i :: 0 <= i < |d.fields| && d.fields[i].name == name
  }

  /** The position of the first `.` in `s`, if any. */
  function DotIndex(s: string): (r: Option<nat>)
    ensures r.None? <==> '.' !in s
    ensures r.Some? ==> r.value < |s| && s[r.value] == '.' && '.' !in s[..r.value]
  {
    if s == [] then None
    else if s[0] == '.' then Some(0)
    else match DotIndex(s[1..])
      case None => None
      case Some(i) =>
        assert s[1..][..i] == s[1..i + 1];
        assert s[..i + 1] == [s[0]] + s[1..i + 1];
        Some(i + 1)
  }

  /** `get_field(path)`: an undotted path names a registered field; a dotted
      one resolves its head locally and hands the remainder to that field. */
  function GetField(d: Definition, path: string): (r: Option<Field>)
    ensures '.' !in path ==> (r.Some? <==> HasField(d, path))
    ensures '.' !in path && r.Some? ==> r.value in d.fields && r.value.name == path
    ensures '.' in path && r.Some? ==> HasField(d, path[..DotIndex(path).value])
    decreases |path|, 0
  {
    match DotIndex(path)
    case None => Lookup(d.fields, path)
    case Some(i) =>
      match Lookup(d.fields, path[..i])
      case None => None
      case Some(f) => FieldGetField(f, path[i + 1..])
  }

  /** `Field#get_field(path)`: resolved in the nested definition; a field
      without one resolves nothing. */
  function FieldGetField(f: Field, path: string): (r: Option<Field>)
    ensures f.nested.None? ==> r.None?
    ensures f.nested.Some? && '.' !in path ==> (r.Some? <==> HasField(f.nested.value, path))
    ensures r.Some? && '.' !in path ==> r.value in f.nested.value.fields && r.value.name == path
    decreases |path|, 1
  {
    match f.nested
    case None => None
    case Some(nd) => GetField(nd, path)
  }

  /** Looking up in `[x] + xs` answers `x` for its own name and defers to
      `xs` for every other name. */
  lemma LookupCons(x: Field, xs: seq<Field>)
    ensures forall n :: Lookup([x] + xs, n) == if x.name == n then Some(x) else Lookup(xs, n)
  {
    assert ([x] + xs)[1..] == xs;
  }

  /** Replaces the field named like `f` where it stands, or appends `f`. */
  function Upsert(fs: seq<Field>, f: Field): (r: seq<Field>)
    ensures Lookup(r, f.name) == Some(f)
    ensures forall n :: n != f.name ==> Lookup(r, n) == Lookup(fs, n)
    ensures (forall i :: 0 <= i < |fs| ==> fs[i].name != f.name) ==> r == fs + [f]
    ensures forall g :: g in r ==> g == f || g in fs
  {
    if fs == [] then
      LookupCons(f, []);
      [f]
    else
      var x, xs := fs[0], fs[1..];
      assert fs == [x] + xs;
      LookupCons(x, xs);
      if x.name == f.name then
        LookupCons(f, xs);
        [f] + xs
      else
        var rest := Upsert(xs, f);
        UpsertCons(x, xs, f, rest);
        [x] + rest
  }

  /** Upserting past a head field of another name: the head stays in front
      of the tail's upsert. */
  lemma UpsertCons(x: Field, xs: seq<Field>, f: Field, rest: seq<Field>)
    requires x.name != f.name
    requires Lookup(rest, f.name) == Some(f)
    requires forall n :: n != f.name ==> Lookup(rest, n) == Lookup(xs, n)
    requires (forall i :: 0 <= i < |xs| ==> xs[i].name != f.name) ==> rest == xs + [f]
    requires forall g :: g in rest ==> g == f || g in xs
    ensures Lookup([x] + rest, f.name) == Some(f)
    ensures forall n :: n != f.name ==> Lookup([x] + rest, n) == Lookup([x] + xs, n)
    ensures (forall i :: 0 <= i < |[x] + xs| ==> ([x] + xs)[i].name != f.name) ==> [x] + rest == [x] + xs + [f]
    ensures forall g :: g in [x] + rest ==> g == f || g in [x] + xs
  {
    LookupCons(x, rest);
    LookupCons(x, xs);
    if forall i :: 0 <= i < |[x] + xs| ==> ([x] + xs)[i].name != f.name {
      forall i | 0 <= i < |xs| ensures xs[i].name != f.name {
        assert xs[i] == ([x] + xs)[i + 1];
      }
      assert [x] + (xs + [f]) == [x] + xs + [f];
    }
  }

  /** `register_field(f)`: refused once the definition is frozen. */
  function RegisterField(d: Definition, f: Field): (r: Result<Definition, Error>)
    ensures r.Success? <==> !d.frozen
    ensures r.Success? ==> HasField(r.value, f.name) && Lookup(r.value.fields, f.name) == Some(f)
    ensures r.Success? ==> forall n :: n != f.name ==> Lookup(r.value.fields, n) == Lookup(d.fields, n)
    ensures r.Success? && !HasField(d, f.name) ==> r.value.fields == d.fields + [f]
    ensures r.Success? ==> r.value.targets == d.targets && r.value.customOptions == d.customOptions && r.value.frozen == d.frozen
  {
    if d.frozen then Failure(FrozenError)
    else
      var fs := Upsert(d.fields, f);
      assert Lookup(fs, f.name) == Some(f);
      Success(d.(fields := fs))
  }

  // ---------------------------------------------------------------------
  // Expanded names

  /** `n` prefixed by `prefix + "."`, for each `n`. */
  function Prefixed(prefix: string, names: seq<string>): (r: seq<string>)
    ensures |r| == |names|
    ensures forall i :: 0 <= i < |names| ==> r[i] == prefix + "." + names[i]
  {
    if names == [] then [] else [prefix + "." + names[0]] + Prefixed(prefix, names[1..])
  }

  /** `Field#expanded_names`: the field's own name, then its nested names
      qualified by it. */
  function ExpandedNames(f: Field): (r: seq<string>)
    ensures |r| >= 1 && r[0] == f.name
    ensures |r| == 1 + (if f.nested.Some? then |ExpandedFieldNames(f.nested.value)| else 0)
    ensures f.nested.Some? ==>
              forall i :: 0 <= i < |ExpandedFieldNames(f.nested.value)| ==> r[i + 1] == f.name + "." + ExpandedFieldNames(f.nested.value)[i]
    decreases f
  {
    [f.name] + match f.nested
      case None => []
      case Some(nd) => Prefixed(f.name, ExpandedFieldNames(nd))
  }

  /** The expanded names of `fs`, concatenated in order. */
  function ExpandedNamesOf(fs: seq<Field>): (r: seq<string>)
    ensures |r| >= |fs|
    ensures fs != [] ==> r[0] == fs[0].name && ExpandedNames(fs[0]) <= r
    decreases fs
  {
    if fs == [] then [] else ExpandedNames(fs[0]) + ExpandedNamesOf(fs[1..])
  }

  /** `expanded_field_names`. */
  function ExpandedFieldNames(d: Definition): (r: seq<string>)
    ensures |r| >= |d.fields|
    ensures d.fields != [] ==> r[0] == d.fields[0].name
    decreases d
  {
    ExpandedNamesOf(d.fields)
  }

  // ---------------------------------------------------------------------
  // Freezing

  /** `Definition#freeze`: freezes the custom options and every field, then itself. */
  function FreezeDefinition(d: Definition): (r: Definition)
    ensures r.frozen && r.customOptions.frozen
    ensures r.targets == d.targets && r.customOptions.entries == d.customOptions.entries
    ensures |r.fields| == |d.fields|
    ensures forall i :: 0 <= i < |d.fields| ==> r.fields[i].frozen && r.fields[i].name == d.fields[i].name && r.fields[i].options == d.fields[i].options
    decreases d
  {
    d.(fields := FreezeFields(d.fields), customOptions := d.customOptions.(frozen := true), frozen := true)
  }

  function FreezeFields(fs: seq<Field>): (r: seq<Field>)
    ensures |r| == |fs|
    ensures forall i :: 0 <= i < |fs| ==> r[i].frozen && r[i].name == fs[i].name && r[i].options == fs[i].options
    decreases fs
  {
    if fs == [] then [] else [FreezeField(fs[0])] + FreezeFields(fs[1..])
  }

  /** `Field#freeze`: freezes the field and its nested definition. */
  function FreezeField(f: Field): (r: Field)
    ensures r.frozen && r.name == f.name && r.options == f.options && r.inferenceEnabled == f.inferenceEnabled
    ensures r.nested.Some? <==> f.nested.Some?
    ensures r.nested.Some? ==> r.nested.value.frozen && r.nested.value.customOptions.frozen
    ensures r.nested.Some? ==>
              && r.nested.value.targets == f.nested.value.targets
              && r.nested.value.customOptions.entries == f.nested.value.customOptions.entries
              && FieldNames(r.nested.value.fields) == FieldNames(f.nested.value.fields)
    decreases f
  {
    f.(frozen := true, nested := match f.nested
      case None => None
      case Some(nd) => Some(FreezeDefinition(nd)))
  }

  /** Everything reachable from `d` is frozen. */
  ghost predicate DeepFrozen(d: Definition)
    decreases d
  {
    && d.frozen
    && d.customOptions.frozen
    && forall i :: 0 <= i < |d.fields| ==> FieldDeepFrozen(d.fields[i])
  }

  ghost predicate FieldDeepFrozen(f: Field)
    decreases f
  {
    f.frozen && (f.nested.Some? ==> DeepFrozen(f.nested.value))
  }

  // ---------------------------------------------------------------------
  // Mapping

  /** Whether the options declare a (non-nil) type. */
  predicate HasType(options: map<string, Value>)
  {
    "type" in options && options["type"] != Null
  }

  /** A field's own options: the declared ones when they carry a type,
      otherwise the main target's inferred options when inference is
      enabled, otherwise an error. */
  function BaseOptions(d: Definition, f: Field, infer: Inferrer): (r: Result<map<string, Value>, Error>)
    ensures HasType(f.options) ==> r == Success(f.options)
    ensures !HasType(f.options) && !f.inferenceEnabled ==> r == Failure(NoMappingType(f.name))
    ensures !HasType(f.options) && f.inferenceEnabled ==>
              (r.Success? <==> MainTarget(d).Success? && infer(MainTarget(d).value, f.name).Success?)
    ensures !HasType(f.options) && r.Success? ==> r.value == infer(MainTarget(d).value, f.name).value
  {
    if HasType(f.options) then Success(f.options)
    else if !f.inferenceEnabled then Failure(NoMappingType(f.name))
    else
      var t :- MainTarget(d);
      match infer(t, f.name)
      case Success(o) => Success(o)
      case Failure(msg) => Failure(InferenceFailed(f.name, msg))
  }

  /** The mapping fragment of field `f` of `d`; an object field adds the
      `properties` of its nested definition. */
  function FieldMapping(d: Definition, f: Field, infer: Inferrer): (r: Result<Value, Error>)
    ensures r.Success? ==> r.value.Obj?
    ensures r.Success? <==> BaseOptions(d, f, infer).Success? && (f.nested.Some? ==> Properties(f.nested.value, infer).Success?)
    ensures r.Success? && f.nested.None? ==> r.value.members == BaseOptions(d, f, infer).value
    ensures r.Success? && f.nested.Some? ==> r.value.members.Keys == BaseOptions(d, f, infer).value.Keys + {"properties"}
    ensures r.Success? && f.nested.Some? ==> r.value.members["properties"] == Obj(Properties(f.nested.value, infer).value)
    ensures r.Success? && f.nested.Some? ==>
              forall k :: k in BaseOptions(d, f, infer).value && k != "properties" ==> r.value.members[k] == BaseOptions(d, f, infer).value[k]
    decreases f
  {
    var base :- BaseOptions(d, f, infer);
    match f.nested
    case None => Success(Obj(base))
    case Some(nd) =>
      var props :- Properties(nd, infer);
      Success(Obj(base["properties" := Obj(props)]))
  }

  /** The `properties` object of the fields `fs` of `d`; the first failing
      field aborts the whole computation. */
  function PropertiesOf(d: Definition, fs: seq<Field>, infer: Inferrer): Result<map<string, Value>, Error>
    decreases fs
  {
    if fs == [] then Success(map[])
    else
      var m :- FieldMapping(d, fs[0], infer);
      var rest :- PropertiesOf(d, fs[1..], infer);
      Success(map[fs[0].name := m] + rest)
  }

  function Properties(d: Definition, infer: Inferrer): Result<map<string, Value>, Error>
    decreases d
  {
    PropertiesOf(d, d.fields, infer)
  }

  /** `as_es_mapping`: `{"properties" => {name => field mapping, ...}}`. */
  function AsEsMapping(d: Definition, infer: Inferrer): (r: Result<Value, Error>)
    ensures r.Success? <==> Properties(d, infer).Success?
    ensures r.Success? ==> r.value.Obj? && r.value.members.Keys == {"properties"} && r.value.members["properties"].Obj?
  {
    var props :- Properties(d, infer);
    Success(Obj(map["properties" := Obj(props)]))
  }
}

=== FILE: definition_lemmas.dfy ===
/** Properties of `Definitions`: what the definition promises about targets,
    custom options, field registration and lookup, expanded names, freezing
    and the mapping document. */
module DefinitionProperties {
  import opened Wrappers
  import opened Json
  import opened Definitions

  // ---------------------------------------------------------------------
  // A new definition

  /** A new definition has no fields, answers no lookups, renders an empty
      `properties` object and is not frozen. */
  lemma NewDefinitionIsEmpty(name: string, infer: Inferrer)
    ensures Fields(NewDefinition()) == []
    ensures !HasField(NewDefinition(), name) && GetField(NewDefinition(), name) == None
    ensures AsEsMapping(NewDefinition(), infer) == Success(Obj(map["properties" := Obj(map[])]))
    ensures !NewDefinition().frozen && !NewDefinition().customOptions.frozen
  {
  }

  // ---------------------------------------------------------------------
  // Targets

  /** Assigning targets never fails; reading them back succeeds exactly when
      the list is valid, and then yields the assigned list and its head as
      main target. */
  lemma TargetsCheckedOnRead(d: Definition, ts: seq<Target>)
    ensures SetTargets(d, ts).fields == d.fields && SetTargets(d, ts).frozen == d.frozen
    ensures Targets(SetTargets(d, ts)).Success? <==> ValidTargets(ts)
    ensures ValidTargets(ts) ==> Targets(SetTargets(d, ts)) == Success(ts)
                                 && MainTarget(SetTargets(d, ts)) == Success(ts[0])
  {
  }

  /** A single indexable target is read back as itself and is the main target. */
  lemma SingleTarget(d: Definition, t: Target)
    requires t.indexable
    ensures Targets(SetTargets(d, [t])) == Success([t])
    ensures MainTarget(SetTargets(d, [t])) == Success(t)
  {
    assert ValidTargets([t]);
  }

  /** A list holding a non-indexable target, or targets of two modes, is
      refused when read. */
  lemma BadTargetsFail(d: Definition, ts: seq<Target>, i: nat, j: nat)
    requires i < |ts| && j < |ts|
    requires !ts[i].indexable || ts[i].mode != ts[j].mode
    ensures Targets(SetTargets(d, ts)).Failure?
    ensures MainTarget(SetTargets(d, ts)).Failure?
  {
  }

  // ---------------------------------------------------------------------
  // Custom options

  /** Indifferent access: a value written under a symbol key is read back
      under the string of the same name, and the other way round. */
  lemma IndifferentAccess(d: Definition, name: string, v: Value)
    requires !d.customOptions.frozen
    ensures SetCustomOption(d, SymKey(name), v).Success?
    ensures GetCustomOption(SetCustomOption(d, SymKey(name), v).value, StrKey(name)) == Some(v)
    ensures GetCustomOption(SetCustomOption(d, StrKey(name), v).value, SymKey(name)) == Some(v)
  {
  }

  // ---------------------------------------------------------------------
  // Registration

  /** Registers `fs` one after another, stopping at the first failure. */
  function RegisterAll(d: Definition, fs: seq<Field>): Result<Definition, Error>
    decreases |fs|
  {
    if fs == [] then Success(d)
    else
      var d' :- RegisterField(d, fs[0]);
      RegisterAll(d', fs[1..])
  }

  /** Registering a field under a new name appends it and changes nothing else. */
  lemma RegisterNewAppends(d: Definition, f: Field)
    requires !d.frozen && !HasField(d, f.name)
    ensures RegisterField(d, f) == Success(d.(fields := d.fields + [f]))
  {
  }

  lemma RegisterAllStep(d: Definition, fs: seq<Field>, d': Definition)
    requires fs != [] && RegisterField(d, fs[0]) == Success(d')
    ensures RegisterAll(d, fs) == RegisterAll(d', fs[1..])
  {
  }

  /** No name of `a` occurs in `b`. */
  ghost predicate DisjointNames(a: seq<Field>, b: seq<Field>)
  {
    forall i, j :: 0 <= i < |a| && 0 <= j < |b| ==> a[i].name != b[j].name
  }

  lemma UniqueFieldsTail(fs: seq<Field>)
    requires fs != [] && UniqueNames(fs)
    ensures UniqueNames(fs[1..])
  {
    var tail := fs[1..];
    forall i, j | 0 <= i < j < |tail| ensures tail[i].name != tail[j].name {
      assert tail[i] == fs[i + 1] && tail[j] == fs[j + 1];
    }
  }

  /** Moving the first new field to the registered ones keeps the rest new. */
  lemma DisjointAfterRegister(a: seq<Field>, fs: seq<Field>)
    requires fs != [] && UniqueNames(fs) && DisjointNames(a, fs)
    ensures DisjointNames(a + [fs[0]], fs[1..])
  {
    var a', tail := a + [fs[0]], fs[1..];
    forall i, j | 0 <= i < |a'| && 0 <= j < |tail| ensures a'[i].name != tail[j].name {
      assert tail[j] == fs[j + 1];
      if i < |a| { assert a'[i] == a[i]; } else { assert a'[i] == fs[0]; }
    }
  }

  /** Fields with new, distinct names are kept in registration order:
      `fields` lists the earlier ones followed by the new ones. */
  lemma {:induction false} RegistrationOrder(d: Definition, fs: seq<Field>)
    requires !d.frozen
    requires UniqueNames(fs)
    requires DisjointNames(d.fields, fs)
    ensures RegisterAll(d, fs).Success?
    ensures Fields(RegisterAll(d, fs).value) == d.fields + fs
    decreases |fs|
  {
    if fs != [] {
      assert !HasField(d, fs[0].name);
      RegisterNewAppends(d, fs[0]);
      var d' := d.(fields := d.fields + [fs[0]]);
      RegisterAllStep(d, fs, d');
      UniqueFieldsTail(fs);
      DisjointAfterRegister(d.fields, fs);
      RegistrationOrder(d', fs[1..]);
      AppendHead(d.fields, fs);
    }
  }

  lemma AppendHead<T>(a: seq<T>, s: seq<T>)
    requires s != []
    ensures a + [s[0]] + s[1..] == a + s
  {
    assert s == [s[0]] + s[1..];
  }

  /** Registering keeps field names unique. */
  lemma {:induction false} UpsertKeepsUnique(fs: seq<Field>, f: Field)
    requires UniqueNames(fs)
    ensures UniqueNames(Upsert(fs, f))
  {
    if fs != [] && fs[0].name != f.name {
      UpsertKeepsUnique(fs[1..], f);
      var r := Upsert(fs, f);
      var rest := Upsert(fs[1..], f);
      assert r == [fs[0]] + rest;
      forall i, j | 0 <= i < j < |r| ensures r[i].name != r[j].name {
        if i == 0 {
          assert r[j] == rest[j - 1] && rest[j - 1] in rest;
          if r[j] != f {
            var k :| 0 <= k < |fs[1..]| && fs[1..][k] == r[j];
            assert fs[k + 1] == r[j];
          }
        } else {
          assert r[i] == rest[i - 1] && r[j] == rest[j - 1];
        }
      }
    }
  }

  lemma RegisterKeepsUnique(d: Definition, f: Field)
    requires !d.frozen && UniqueNames(d.fields)
    ensures UniqueNames(RegisterField(d, f).value.fields)
  {
    UpsertKeepsUnique(d.fields, f);
  }

  /** The specs' two registrations: `foo` then `bar` are listed in that order
      and both answer `has_field?`, while an unregistered name does not. */
  lemma TwoFieldsInOrder(d: Definition, foo: Field, bar: Field, baz: string)
    requires !d.frozen && d.fields == []
    requires foo.name != bar.name && baz != foo.name && baz != bar.name
    ensures RegisterAll(d, [foo, bar]).Success?
    ensures Fields(RegisterAll(d, [foo, bar]).value) == [foo, bar]
    ensures HasField(RegisterAll(d, [foo, bar]).value, foo.name)
    ensures !HasField(RegisterAll(d, [foo, bar]).value, baz)
  {
    RegistrationOrder(d, [foo, bar]);
    assert RegisterAll(d, [foo, bar]).value.fields[0] == foo;
  }

  // ---------------------------------------------------------------------
  // Lookup

  /** For an undotted name, `has_field?` holds exactly when `get_field`
      answers, and what it answers is a registered field of that name. */
  lemma HasFieldIffGetField(d: Definition, name: string)
    requires '.' !in name
    ensures HasField(d, name) <==> GetField(d, name).Some?
    ensures GetField(d, name).Some? ==> GetField(d, name).value in Fields(d) && GetField(d, name).value.name == name
  {
  }

  /** With unique names, `get_field` of a registered field's name is that field. */
  lemma GetRegisteredField(d: Definition, i: nat)
    requires i < |d.fields| && UniqueNames(d.fields) && '.' !in d.fields[i].name
    ensures GetField(d, d.fields[i].name) == Some(d.fields[i])
  {
    var r := GetField(d, d.fields[i].name);
    assert r.Some?;
    var j :| 0 <= j < |d.fields| && d.fields[j] == r.value;
  }

  /** `DotIndex` finds the dot after an undotted head. */
  lemma {:induction false} DotAfterHead(head: string, rest: string)
    requires '.' !in head
    ensures DotIndex(head + "." + rest) == Some(|head|)
  {
    if head != [] {
      assert (head + "." + rest)[1..] == head[1..] + "." + rest;
      DotAfterHead(head[1..], rest);
    }
  }

  /** `get_field("head.rest")` looks up `head` and asks that field for `rest`. */
  lemma GetFieldDelegates(d: Definition, head: string, rest: string)
    requires '.' !in head
    ensures GetField(d, head + "." + rest) ==
              match Lookup(d.fields, head)
              case None => None
              case Some(f) => FieldGetField(f, rest)
  {
    var p := head + "." + rest;
    DotAfterHead(head, rest);
    assert p[..|head|] == head;
    assert p[|head| + 1..] == rest;
  }

  /** With the field `head` registered, `get_field("head.rest")` is that
      field's `get_field(rest)`. */
  lemma NestedLookup(d: Definition, i: nat, rest: string)
    requires i < |d.fields| && UniqueNames(d.fields) && '.' !in d.fields[i].name
    ensures GetField(d, d.fields[i].name + "." + rest) == FieldGetField(d.fields[i], rest)
  {
    GetFieldDelegates(d, d.fields[i].name, rest);
    GetRegisteredField(d, i);
  }

  // ---------------------------------------------------------------------
  // Expanded names

  lemma {:induction false} ExpandedNamesAppend(a: seq<Field>, b: seq<Field>)
    ensures ExpandedNamesOf(a + b) == ExpandedNamesOf(a) + ExpandedNamesOf(b)
  {
    if a != [] {
      assert (a + b)[0] == a[0];
      assert (a + b)[1..] == a[1..] + b;
      ExpandedNamesAppend(a[1..], b);
      calc {
        ExpandedNamesOf(a + b);
        ExpandedNames(a[0]) + ExpandedNamesOf(a[1..] + b);
        ExpandedNames(a[0]) + (ExpandedNamesOf(a[1..]) + ExpandedNamesOf(b));
        (ExpandedNames(a[0]) + ExpandedNamesOf(a[1..])) + ExpandedNamesOf(b);
        ExpandedNamesOf(a) + ExpandedNamesOf(b);
      }
    } else {
      assert a + b == b;
    }
  }

  /** A field without a nested definition expands to its own name only, so
      scalar fields expand to their names in registration order. */
  lemma {:induction false} ScalarExpandedNames(fs: seq<Field>)
    requires forall i :: 0 <= i < |fs| ==> fs[i].nested.None?
    ensures ExpandedNamesOf(fs) == FieldNames(fs)
  {
    if fs != [] {
      ScalarExpandedNames(fs[1..]);
    }
  }

  /** A single field contributes exactly its own `expanded_names`; with
      `ExpandedNamesAppend` this makes `expanded_field_names` the fields'
      `expanded_names` concatenated in registration order. */
  lemma ExpandedNamesOfSingleton(f: Field)
    ensures ExpandedNamesOf([f]) == ExpandedNames(f)
  {
    assert [f][1..] == [];
  }

  /** A name is an expanded field name exactly when it is one of some
      field's `expanded_names`. */
  lemma {:induction false} ExpandedNamesOfMembers(fs: seq<Field>)
    ensures forall n :: n in ExpandedNamesOf(fs) <==> exists i :: 0 <= i < |fs| && n in ExpandedNames(fs[i])
    decreases fs
  {
    if fs != [] {
      ExpandedNamesOfMembers(fs[1..]);
      assert ExpandedNamesOf(fs) == ExpandedNames(fs[0]) + ExpandedNamesOf(fs[1..]);
      forall n ensures n in ExpandedNamesOf(fs) <==> exists i :: 0 <= i < |fs| && n in ExpandedNames(fs[i]) {
        if n in ExpandedNamesOf(fs[1..]) {
          var j :| 0 <= j < |fs[1..]| && n in ExpandedNames(fs[1..][j]);
          assert fs[1..][j] == fs[j + 1];
        }
        if exists i :: 0 <= i < |fs| && n in ExpandedNames(fs[i]) {
          var i :| 0 <= i < |fs| && n in ExpandedNames(fs[i]);
          if i > 0 {
            assert fs[i] == fs[1..][i - 1];
          }
        }
      }
    }
  }

  /** A field's expanded names all start with the field's name, the first
      being the name itself. */
  lemma ExpandedNamesOfField(f: Field)
    ensures ExpandedNames(f)[0] == f.name
    ensures forall n :: n in ExpandedNames(f) ==> f.name <= n
  {
    forall n | n in ExpandedNames(f) ensures f.name <= n {
      if n != f.name {
        var ns := ExpandedFieldNames(f.nested.value);
        assert n in Prefixed(f.name, ns);
        var k :| 0 <= k < |ns| && Prefixed(f.name, ns)[k] == n;
        assert n == f.name + "." + ns[k];
      }
    }
  }

  /** Every registered name is among the expanded names. */
  lemma {:induction false} ExpandedNamesIncludeFields(fs: seq<Field>)
    ensures forall i :: 0 <= i < |fs| ==> fs[i].name in ExpandedNamesOf(fs)
  {
    if fs != [] {
      ExpandedNamesIncludeFields(fs[1..]);
      ExpandedNamesOfField(fs[0]);
      forall i | 0 <= i < |fs| ensures fs[i].name in ExpandedNamesOf(fs) {
        if i > 0 { assert fs[1..][i - 1] == fs[i]; }
      }
    }
  }

  /** Every expanded name starts with a registered name. */
  lemma {:induction false} ExpandedNamesStartWithFields(fs: seq<Field>)
    ensures forall n :: n in ExpandedNamesOf(fs) ==> exists i :: 0 <= i < |fs| && fs[i].name <= n
  {
    if fs != [] {
      ExpandedNamesStartWithFields(fs[1..]);
      ExpandedNamesOfField(fs[0]);
      forall n | n in ExpandedNamesOf(fs) ensures exists i :: 0 <= i < |fs| && fs[i].name <= n {
        assert ExpandedNamesOf(fs) == ExpandedNames(fs[0]) + ExpandedNamesOf(fs[1..]);
        if n in ExpandedNames(fs[0]) {
          assert fs[0].name <= n;
        } else {
          assert n in ExpandedNamesOf(fs[1..]);
          var i :| 0 <= i < |fs[1..]| && fs[1..][i].name <= n;
          assert fs[i + 1].name <= n;
        }
      }
    }
  }

  // ---------------------------------------------------------------------
  // Freezing

  /** Freezing keeps every field's name, options, inference flag and
      position; only frozen flags change. */
  lemma {:induction false} FreezeFieldsKeepsShape(fs: seq<Field>)
    ensures |FreezeFields(fs)| == |fs|
    ensures forall i :: 0 <= i < |fs| ==> FreezeFields(fs)[i] == FreezeField(fs[i])
  {
    if fs != [] {
      FreezeFieldsKeepsShape(fs[1..]);
    }
  }

  /** After `freeze`, the definition, its custom options and every field
      (with their nested definitions) are frozen. */
  lemma {:induction false} FreezeIsDeep(d: Definition)
    ensures DeepFrozen(FreezeDefinition(d))
    decreases d
  {
    var fd := FreezeDefinition(d);
    FreezeFieldsKeepsShape(d.fields);
    forall i | 0 <= i < |fd.fields| ensures FieldDeepFrozen(fd.fields[i]) {
      FreezeFieldIsDeep(d.fields[i]);
    }
  }

  lemma {:induction false} FreezeFieldIsDeep(f: Field)
    ensures FieldDeepFrozen(FreezeField(f))
    decreases f
  {
    if f.nested.Some? {
      FreezeIsDeep(f.nested.value);
    }
  }

  /** Freezing what is already frozen changes nothing. */
  lemma {:induction false} FreezeFixesFrozen(d: Definition)
    requires DeepFrozen(d)
    ensures FreezeDefinition(d) == d
    decreases d
  {
    FreezeFieldsKeepsShape(d.fields);
    forall i | 0 <= i < |d.fields| ensures FreezeField(d.fields[i]) == d.fields[i] {
      FreezeFieldFixesFrozen(d.fields[i]);
    }
    assert FreezeFields(d.fields) == d.fields;
  }

  lemma {:induction false} FreezeFieldFixesFrozen(f: Field)
    requires FieldDeepFrozen(f)
    ensures FreezeField(f) == f
    decreases f
  {
    if f.nested.Some? {
      FreezeFixesFrozen(f.nested.value);
    }
  }

  /** `freeze` is idempotent. */
  lemma FreezeIdempotent(d: Definition)
    ensures FreezeDefinition(FreezeDefinition(d)) == FreezeDefinition(d)
  {
    FreezeIsDeep(d);
    FreezeFixesFrozen(FreezeDefinition(d));
  }

  /** A frozen definition reports `frozen?`, refuses `register_field`, and
      its custom options refuse writes. */
  lemma FrozenRefusesWrites(d: Definition, f: Field, k: Key, v: Value)
    ensures FreezeDefinition(d).frozen && FreezeDefinition(d).customOptions.frozen
    ensures RegisterField(FreezeDefinition(d), f) == Failure(FrozenError)
    ensures SetCustomOption(FreezeDefinition(d), k, v) == Failure(FrozenError)
  {
  }

  /** Freezing keeps the registered fields' names in order, and every field
      of the frozen definition is the frozen copy of the field that was there. */
  lemma FreezeKeepsFields(d: Definition)
    ensures FieldNames(Fields(FreezeDefinition(d))) == FieldNames(Fields(d))
    ensures forall i :: 0 <= i < |d.fields| ==>
              Fields(FreezeDefinition(d))[i].frozen && Fields(FreezeDefinition(d))[i].options == d.fields[i].options
  {
    FreezeFieldsKeepsShape(d.fields);
  }

  /** Freezing does not change the expanded names. */
  lemma {:induction false} FreezeKeepsExpandedNames(d: Definition)
    ensures ExpandedFieldNames(FreezeDefinition(d)) == ExpandedFieldNames(d)
    decreases d
  {
    FreezeKeepsExpandedNamesOf(d.fields);
  }

  lemma {:induction false} FreezeKeepsExpandedNamesOf(fs: seq<Field>)
    ensures ExpandedNamesOf(FreezeFields(fs)) == ExpandedNamesOf(fs)
    decreases fs
  {
    if fs != [] {
      var f := fs[0];
      assert FreezeFields(fs)[1..] == FreezeFields(fs[1..]);
      if f.nested.Some? {
        FreezeKeepsExpandedNames(f.nested.value);
      }
      assert ExpandedNames(FreezeField(f)) == ExpandedNames(f);
      FreezeKeepsExpandedNamesOf(fs[1..]);
    }
  }

  /** Freezing changes no mapping: `as_es_mapping` of the frozen definition
      is that of the original, nested definitions included. */
  lemma FreezeKeepsMapping(d: Definition, infer: Inferrer)
    ensures AsEsMapping(FreezeDefinition(d), infer) == AsEsMapping(d, infer)
  {
    FreezeKeepsProperties(d, infer);
  }

  lemma {:induction false} FreezeKeepsProperties(d: Definition, infer: Inferrer)
    ensures Properties(FreezeDefinition(d), infer) == Properties(d, infer)
    decreases d
  {
    FreezeKeepsPropertiesOf(FreezeDefinition(d), d, d.fields, infer);
  }

  /** The field list's properties are kept by freezing, under any definition
      with the same targets. */
  lemma {:induction false} FreezeKeepsPropertiesOf(d': Definition, d: Definition, fs: seq<Field>, infer: Inferrer)
    requires d'.targets == d.targets
    ensures PropertiesOf(d', FreezeFields(fs), infer) == PropertiesOf(d, fs, infer)
    decreases fs
  {
    if fs != [] {
      var ffs := FreezeFields(fs);
      assert ffs == [FreezeField(fs[0])] + FreezeFields(fs[1..]);
      assert ffs[0] == FreezeField(fs[0]) && ffs[1..] == FreezeFields(fs[1..]);
      FreezeKeepsFieldMapping(d', d, fs[0], infer);
      FreezeKeepsPropertiesOf(d', d, fs[1..], infer);
    }
  }

  lemma {:induction false} FreezeKeepsFieldMapping(d': Definition, d: Definition, f: Field, infer: Inferrer)
    requires d'.targets == d.targets
    ensures FieldMapping(d', FreezeField(f), infer) == FieldMapping(d, f, infer)
    decreases f
  {
    assert MainTarget(d') == MainTarget(d);
    assert BaseOptions(d', FreezeField(f), infer) == BaseOptions(d, f, infer);
    if f.nested.Some? {
      FreezeKeepsProperties(f.nested.value, infer);
    }
  }

  // ---------------------------------------------------------------------
  // Mapping

  /** The name set of a non-empty list is its head's name and the tail's names. */
  lemma NameSetCons(fs: seq<Field>)
    requires fs != []
    ensures NameSet(fs) == {fs[0].name} + NameSet(fs[1..])
  {
    forall n | n in NameSet(fs) ensures n in {fs[0].name} + NameSet(fs[1..]) {
      var i :| 0 <= i < |fs| && fs[i].name == n;
      if i > 0 { assert fs[1..][i - 1].name == n; }
    }
  }

  /** The `properties` object succeeds exactly when every field's mapping
      does, and then has one key per field name. */
  lemma {:induction false} PropertiesOfSucceeds(d: Definition, fs: seq<Field>, infer: Inferrer)
    ensures PropertiesOf(d, fs, infer).Success? <==>
              forall i :: 0 <= i < |fs| ==> FieldMapping(d, fs[i], infer).Success?
    ensures PropertiesOf(d, fs, infer).Success? ==>
              PropertiesOf(d, fs, infer).value.Keys == NameSet(fs)
  {
    if fs != [] {
      PropertiesOfSucceeds(d, fs[1..], infer);
      assert forall i :: 1 <= i < |fs| ==> fs[1..][i - 1] == fs[i];
      if PropertiesOf(d, fs, infer).Success? {
        NameSetCons(fs);
      }
    }
  }

  /** With unique names, each field's key holds that field's mapping. */
  lemma {:induction false} PropertiesOfValues(d: Definition, fs: seq<Field>, infer: Inferrer)
    requires PropertiesOf(d, fs, infer).Success? && UniqueNames(fs)
    ensures forall i :: 0 <= i < |fs| ==>
              && fs[i].name in PropertiesOf(d, fs, infer).value
              && FieldMapping(d, fs[i], infer).Success?
              && PropertiesOf(d, fs, infer).value[fs[i].name] == FieldMapping(d, fs[i], infer).value
  {
    if fs != [] {
      var r := PropertiesOf(d, fs, infer).value;
      var rest := PropertiesOf(d, fs[1..], infer).value;
      assert UniqueNames(fs[1..]);
      PropertiesOfValues(d, fs[1..], infer);
      PropertiesOfSucceeds(d, fs[1..], infer);
      forall i | 0 <= i < |fs|
        ensures fs[i].name in r && FieldMapping(d, fs[i], infer).Success? && r[fs[i].name] == FieldMapping(d, fs[i], infer).value
      {
        if i > 0 {
          assert fs[1..][i - 1] == fs[i];
          assert fs[i].name in rest;
        }
      }
    }
  }

  /** On failure the error is that of the first field whose mapping fails. */
  lemma {:induction false} PropertiesOfFirstError(d: Definition, fs: seq<Field>, infer: Inferrer)
    requires PropertiesOf(d, fs, infer).Failure?
    ensures exists i :: 0 <= i < |fs| && FieldMapping(d, fs[i], infer).Failure?
              && PropertiesOf(d, fs, infer).error == FieldMapping(d, fs[i], infer).error
              && forall j :: 0 <= j < i ==> FieldMapping(d, fs[j], infer).Success?
  {
    if FieldMapping(d, fs[0], infer).Success? {
      PropertiesOfFirstError(d, fs[1..], infer);
      var k :| 0 <= k < |fs[1..]| && FieldMapping(d, fs[1..][k], infer).Failure?
               && PropertiesOf(d, fs[1..], infer).error == FieldMapping(d, fs[1..][k], infer).error
               && forall j :: 0 <= j < k ==> FieldMapping(d, fs[1..][j], infer).Success?;
      assert fs[1..][k] == fs[k + 1];
      forall j | 0 <= j < k + 1 ensures FieldMapping(d, fs[j], infer).Success? {
        if j > 0 { assert fs[1..][j - 1] == fs[j]; }
      }
    }
  }

  /** The `properties` object succeeds exactly when every field's mapping
      does; it then has one key per field, holding that field's mapping;
      otherwise its error is the first failing field's. */
  lemma PropertiesOfSpec(d: Definition, fs: seq<Field>, infer: Inferrer)
    ensures PropertiesOf(d, fs, infer).Success? <==>
              forall i :: 0 <= i < |fs| ==> FieldMapping(d, fs[i], infer).Success?
    ensures PropertiesOf(d, fs, infer).Success? ==>
              PropertiesOf(d, fs, infer).value.Keys == NameSet(fs)
    ensures PropertiesOf(d, fs, infer).Success? && UniqueNames(fs) ==>
              forall i :: 0 <= i < |fs| ==> PropertiesOf(d, fs, infer).value[fs[i].name] == FieldMapping(d, fs[i], infer).value
    ensures PropertiesOf(d, fs, infer).Failure? ==>
              exists i :: 0 <= i < |fs| && FieldMapping(d, fs[i], infer).Failure?
                && PropertiesOf(d, fs, infer).error == FieldMapping(d, fs[i], infer).error
                && forall j :: 0 <= j < i ==> FieldMapping(d, fs[j], infer).Success?
  {
    PropertiesOfSucceeds(d, fs, infer);
    if PropertiesOf(d, fs, infer).Success? {
      if UniqueNames(fs) {
        PropertiesOfValues(d, fs, infer);
      }
    } else {
      PropertiesOfFirstError(d, fs, infer);
    }
  }

  /** `as_es_mapping` succeeds exactly when every field's mapping does, and
      then maps each field name to that field's mapping. */
  lemma MappingSpec(d: Definition, infer: Inferrer)
    requires UniqueNames(d.fields)
    ensures AsEsMapping(d, infer).Success? <==>
              forall i :: 0 <= i < |d.fields| ==> FieldMapping(d, d.fields[i], infer).Success?
    ensures AsEsMapping(d, infer).Success? ==>
              && AsEsMapping(d, infer).value.Obj?
              && AsEsMapping(d, infer).value.members.Keys == {"properties"}
              && AsEsMapping(d, infer).value.members["properties"].Obj?
              && AsEsMapping(d, infer).value.members["properties"].members.Keys == NameSet(d.fields)
              && forall i :: 0 <= i < |d.fields| ==>
                   AsEsMapping(d, infer).value.members["properties"].members[d.fields[i].name]
                   == FieldMapping(d, d.fields[i], infer).value
  {
    PropertiesOfSpec(d, d.fields, infer);
  }

  /** A scalar field that declares a type maps to its options as given. */
  lemma TypedFieldMapping(d: Definition, f: Field, infer: Inferrer)
    requires HasType(f.options) && f.nested.None?
    ensures FieldMapping(d, f, infer) == Success(Obj(f.options))
  {
  }

  /** A scalar field without a type and with inference enabled maps to the
      options the main target infers for its name. */
  lemma InferredFieldMapping(d: Definition, f: Field, infer: Inferrer, o: map<string, Value>)
    requires !HasType(f.options) && f.inferenceEnabled && f.nested.None?
    requires MainTarget(d).Success? && infer(MainTarget(d).value, f.name) == Success(o)
    ensures FieldMapping(d, f, infer) == Success(Obj(o))
  {
  }

  /** A registered field without a type and with inference disabled makes
      the whole `as_es_mapping` fail. */
  lemma UninferableFieldFails(d: Definition, i: nat, infer: Inferrer)
    requires i < |d.fields| && !HasType(d.fields[i].options) && !d.fields[i].inferenceEnabled
    ensures AsEsMapping(d, infer).Failure?
  {
    assert FieldMapping(d, d.fields[i], infer).Failure?;
    PropertiesOfSpec(d, d.fields, infer);
  }

  /** Two typed scalar fields render as exactly their two properties. */
  lemma TypedPairMapping(d: Definition, foo: Field, bar: Field, infer: Inferrer)
    requires d.fields == [foo, bar]
    requires HasType(foo.options) && foo.nested.None? && HasType(bar.options) && bar.nested.None?
    ensures AsEsMapping(d, infer) == Success(Obj(map["properties" := Obj(map[
              foo.name := Obj(foo.options), bar.name := Obj(bar.options)])]))
  {
    TypedFieldMapping(d, foo, infer);
    TypedFieldMapping(d, bar, infer);
    assert [foo, bar][1..] == [bar];
    assert [bar][1..] == [];
    assert PropertiesOf(d, [], infer) == Success(map[]);
    var barMap := map[bar.name := Obj(bar.options)];
    assert barMap + map[] == barMap;
    assert PropertiesOf(d, [bar], infer) == Success(barMap);
    var both := map[foo.name := Obj(foo.options)] + barMap;
    assert PropertiesOf(d, [foo, bar], infer) == Success(both);
    assert both == map[foo.name := Obj(foo.options), bar.name := Obj(bar.options)];
    assert Properties(d, infer) == Success(both);
  }

  /** The specs' mapping: `foo` typed `string` and `bar` typed `integer`
      render as exactly those two properties. */
  lemma TypedFieldsExample(d: Definition, infer: Inferrer)
    requires !d.frozen && d.fields == []
    ensures var foo := NewField("foo", map["type" := Str("string")], true);
            var bar := NewField("bar", map["type" := Str("integer")], false);
            && RegisterAll(d, [foo, bar]).Success?
            && AsEsMapping(RegisterAll(d, [foo, bar]).value, infer) == Success(Obj(map["properties" := Obj(map[
                 "foo" := Obj(map["type" := Str("string")]),
                 "bar" := Obj(map["type" := Str("integer")])])]))
  {
    var foo := NewField("foo", map["type" := Str("string")], true);
    var bar := NewField("bar", map["type" := Str("integer")], false);
    RegistrationOrder(d, [foo, bar]);
    var d' := RegisterAll(d, [foo, bar]).value;
    assert d'.fields == [foo, bar];
    TypedPairMapping(d', foo, bar, infer);
  }

  /** The specs' inference: with `elastic_field_options_for` answering
      `{'type' => 'teapot'}`, an untyped field maps to that. */
  lemma InferenceExample(d: Definition, t: Target, infer: Inferrer)
    requires !d.frozen && d.fields == [] && t.indexable
    requires infer(t, "foo") == Success(map["type" := Str("teapot")])
    ensures var d' := SetTargets(d, [t]);
            var foo := NewField("foo", map[], true);
            && RegisterField(d', foo).Success?
            && AsEsMapping(RegisterField(d', foo).value, infer)
                 == Success(Obj(map["properties" := Obj(map["foo" := Obj(map["type" := Str("teapot")])])]))
  {
    var d' := SetTargets(d, [t]);
    SingleTarget(d, t);
    var foo := NewField("foo", map[], true);
    var d'' := RegisterField(d', foo).value;
    assert d''.fields == [foo];
    assert MainTarget(d'') == Success(t);
    InferredFieldMapping(d'', foo, infer, map["type" := Str("teapot")]);
    assert [foo][1..] == [];
    assert PropertiesOf(d'', [], infer) == Success(map[]);
    var fooMap := map["foo" := Obj(map["type" := Str("teapot")])];
    assert fooMap + map[] == fooMap;
    assert PropertiesOf(d'', d''.fields, infer) == Success(fooMap);
    assert Properties(d'', infer) == Success(fooMap);
  }
}

=== FILE: json.dfy ===
/** The JSON-like documents exchanged with the search engine: Ruby hashes with
    string keys, arrays, strings, symbols, integers, booleans and `nil`.
    Objects are maps, so two documents that differ only in key order are equal,
    as Ruby's `Hash#==` has it. */
module Json {

  datatype Value =
    | Null
    | Bool(b: bool)
    | Int(i: int)
    | Str(s: string)
    | Sym(name: string)
    | Arr(items: seq<Value>)
    | Obj(members: map<string, Value>)

  /** The member `key` of an object, or `Null` when the object has no such key
      or the value is not an object (Ruby's `hash['key']` on a missing key). */
  function Member(v: Value, key: string): Value
  {
    if v.Obj? && key in v.members then v.members[key] else Null
  }
}

=== FILE: time_zone.dfy ===
/** The time-zone value objects a date histogram accepts
    (`ActiveSupport::TimeZone`). The zone database itself is not modelled: a
    zone is a name and its offset from UTC in seconds, and the only operation
    the histogram needs is the zone's formatted offset, `"+HH:MM"`. */
module TimeZones {
  import opened Wrappers

  datatype Zone = Zone(name: string, utcOffset: int)

  /** `ActiveSupport::TimeZone.new('UTC')`. */
  const Utc: Zone := Zone("UTC", 0)

  function DigitChar(d: nat): (c: char)
    requires d < 10
    ensures IsDigit(c) && c as int - '0' as int == d
  {
    "0123456789"[d]
  }

  predicate IsDigit(c: char)
  {
    '0' <= c <= '9'
  }

  function DigitValue(c: char): (r: nat)
    requires IsDigit(c)
    ensures r < 10 && DigitChar(r) == c
  {
    var r := (c as int - '0' as int) as nat;
    assert "0123456789"[r] == c;
    r
  }

  /** `n` in decimal, most significant digit first. */
  function Decimal(n: nat): (r: string)
    ensures |r| >= 1 && (n >= 10 ==> |r| >= 2)
    decreases n
  {
    if n < 10 then [DigitChar(n)] else Decimal(n / 10) + [DigitChar(n % 10)]
  }

  /** `n` in decimal with at least two digits (`"%02d"`). */
  function Pad2(n: nat): (r: string)
    ensures |r| >= 2
    ensures n < 100 ==> |r| == 2 && IsDigit(r[0]) && IsDigit(r[1]) && DigitValue(r[0]) * 10 + DigitValue(r[1]) == n
  {
    if n < 10 then [DigitChar(0), DigitChar(n)]
    else
      assert n < 100 ==> Decimal(n) == [DigitChar(n / 10), DigitChar(n % 10)];
      Decimal(n)
  }

  /** The absolute offset split into whole hours and remaining whole minutes. */
  function Hours(z: Zone): nat
  {
    Abs(z.utcOffset) / 3600
  }

  function Minutes(z: Zone): (r: nat)
    ensures r < 60
  {
    Abs(z.utcOffset) % 3600 / 60
  }

  function Abs(x: int): nat
  {
    if x < 0 then -x else x
  }

  /** Zones whose offset fits the two-digit hour field. Every real zone does
      (offsets stay within fourteen hours of UTC). */
  predicate InRange(z: Zone)
  {
    Abs(z.utcOffset) < 100 * 3600
  }

  /** `formatted_offset`: sign, two-digit hours, colon, two-digit minutes;
      seconds are dropped, and UTC itself is written with a plus sign. */
  function FormattedOffset(z: Zone): (r: string)
    ensures |r| >= 6 && r[0] == (if z.utcOffset < 0 then '-' else '+')
    ensures InRange(z) ==> |r| == 6 && r[3] == ':'
  {
    [if z.utcOffset < 0 then '-' else '+'] + Pad2(Hours(z)) + ":" + Pad2(Minutes(z))
  }

  /** Reads a `"+HH:MM"` / `"-HH:MM"` string back as an offset in seconds. */
  function ParseOffset(s: string): Option<int>
  {
    if |s| == 6 && (s[0] == '+' || s[0] == '-') && s[3] == ':'
       && IsDigit(s[1]) && IsDigit(s[2]) && IsDigit(s[4]) && IsDigit(s[5])
    then
      var magnitude := (DigitValue(s[1]) * 10 + DigitValue(s[2])) * 3600
                       + (DigitValue(s[4]) * 10 + DigitValue(s[5])) * 60;
      Some(if s[0] == '-' then -magnitude else magnitude)
    else None
  }

  /** Hours and minutes recompose a whole-minute magnitude. */
  lemma SplitRecomposes(a: nat)
    requires a % 60 == 0
    ensures (a / 3600) * 3600 + (a % 3600 / 60) * 60 == a
  {
    var h := a / 3600;
    var rest := a % 3600;
    assert a == h * 3600 + rest;
    var m := rest / 60;
    assert rest == m * 60 + rest % 60;
    assert rest % 60 == 0 by {
      assert a == (h * 60) * 60 + rest;
    }
  }

  /** A sign, two padded fields and a colon read back as hours and minutes. */
  lemma ParseFormatted(c: char, h: nat, m: nat)
    requires c == '+' || c == '-'
    requires h < 100 && m < 100
    ensures ParseOffset([c] + Pad2(h) + ":" + Pad2(m)) == Some(if c == '-' then -(h * 3600 + m * 60) else h * 3600 + m * 60)
  {
    var s := [c] + Pad2(h) + ":" + Pad2(m);
    assert s[1] == Pad2(h)[0] && s[2] == Pad2(h)[1];
    assert s[3] == ':';
    assert s[4] == Pad2(m)[0] && s[5] == Pad2(m)[1];
  }

  /** The formatted offset denotes the zone's offset, whenever the offset is a
      whole number of minutes. */
  lemma FormattedOffsetRoundTrip(z: Zone)
    requires InRange(z) && z.utcOffset % 60 == 0
    ensures ParseOffset(FormattedOffset(z)) == Some(z.utcOffset)
  {
    var a := Abs(z.utcOffset);
    assert a % 60 == 0;
    SplitRecomposes(a);
    assert Hours(z) * 3600 + Minutes(z) * 60 == a;
    ParseFormatted(if z.utcOffset < 0 then '-' else '+', Hours(z), Minutes(z));
  }

  /** UTC is rendered as `"+00:00"`. */
  lemma UtcOffsetString()
    ensures FormattedOffset(Utc) == "+00:00"
  {
  }
}

=== FILE: wrappers.dfy ===
/** Failure-compatible wrappers shared by the model: `Option` stands for Ruby's
    `nil`-or-value, `Result` for a value-or-raised-error. Both can be used with `:-`. */
module Wrappers {

  datatype Option<+T> = None | Some(value: T) {

    predicate IsFailure() {
      None?
    }

    function PropagateFailure<U>(): Option<U>
      requires None?
    {
      None
    }

    function Extract(): T
      requires Some?
    {
      value
    }
  }

  datatype Result<+T, +E> = Success(value: T) | Failure(error: E) {

    predicate IsFailure() {
      Failure?
    }

    function PropagateFailure<U>(): Result<U, E>
      requires Failure?
    {
      Failure(error)
    }

    function Extract(): T
      requires Success?
    {
      value
    }
  }
}
